=== FILE: README.md ===
# CCN-Lite on RIOT with COMPAS: a verified model of the relay's decision logic

CCN-Lite is a named-data forwarder. This repository ports it to the RIOT
operating system and adds hooks for COMPAS, a DODAG-based routing layer that
advertises prefixes (PAM) and names (NAM). The model covers the sequential
decision logic that sits between the network, the timers and the relay's
data structures:

- **Frame demultiplexing** (`ccnl_core_RX`, `ccnl_core_init`, `icnl_name_decompress`):
  - switch-marker stripping and suite sniffing;
  - dispatch through the suite table;
  - PIT lookup by hop id.
- **Content store** (`ccnl_content_new`, `ccnl_content_free`, `ccnl_content_remove`):
  - content construction with ownership transfer of the packet;
  - release;
  - unlinking from the store;
  - the caching-strategy admission and removal hooks.
- **NFN requests**:
  - parsing a command component ("CIM 3") into a type and an argument;
  - the decimal round trip of the argument;
  - component rebuilding and descriptions;
  - the intermediate-result maximum and the interest handler.
- **COMPAS**:
  - the parent-timeout transition;
  - PAM and NAM frame construction and the egress interface;
  - the NAM retry pass over the content store;
  - the PAM/NAM event-loop ticks.
- **RIOT link layer**:
  - `ccnl_ll_TX`'s loopback and broadcast classification;
  - `_receive`'s interface lookup and HOPP diversion;
  - `ccnl_open_netif`;
  - buffer allocation;
  - `ccnl_wait_for_chunk`;
  - `ccnl_send_interest`.
- **Timer discipline** (the `ccn-lite-riot.h` helpers):
  - evtimer "delete then add" re-arming;
  - the message-queue purge of a removed interest;
  - the statistics counters.

The bounded interest retransmission rule (`ccnl_interest_retransmit`) is
in the plain RIOT relay's `ccn-lite-riot.c` and is listed with the RIOT
link layer's operations in the table below.

Modelling conventions:

- The relay (`struct ccnl_relay_s`) is the class `CcnlTypes.Relay`.
- The content list is `seq<Content>` plus `contentcnt`. The PIT is `seq<Interest>`, and the interfaces are `seq<Iface>`.
- Objects the code updates in place are classes:
  - NFN requests, interests, faces and timer events;
  - the suite table, which is an array;
  - the policy pointers, the counters and the evtimer.
- Collaborators whose code is not in these files are function-typed parameters. They include:
  - prefix comparison;
  - `ccnl_prefix_to_path` and `ccnl_URItoPrefix`;
  - `qos_traffic_class`;
  - the dispatchers;
  - the COMPAS encoders;
  - the NDN TLV encoders.
- Outcomes of allocation and of gnrc calls are boolean or integer parameters.
- Header constants without a value in the sources are declared without one, so every proof holds for every value. Examples are `CCNL_MAX_INTERFACES`, `CCNL_MAX_INTEREST_RETRANSMIT`, the COMPAS flags and ranks, and `CCNL_ENC_COMPAS`.
- Suite numbers are CCN-Lite's: CCNB 1, CCNTLV 2, LOCALRPC 5, NDNTLV 6, and 7 table entries.

Where the code and its documentation disagree, the model follows the code:

- A switch marker whose encoding maps to no suite (-1) does not abort the frame. Because `suite` is -1 again, the suite is sniffed from the packet (`Dispatch.UnknownEncodingFallsBackToSniffing`).
- `src/ccn-lite-compas.c:107-108` misses a comma in the call that adds the name, so as written it does not compile. It is modelled with the evidently intended arguments.
- The RIOT event loop handles `CCNL_MSG_DEL_CS` and `CCNL_MSG_IN_CS`. The header defines neither of them (it has `CCNL_MSG_CS_DEL`), so only the handlers' effect and reply value are modelled, not the message type numbers.
- `ccnl_interest_retransmit` adds `retrans_timer` to the evtimer without deleting it first. The re-arm helper works on `evtmsg_retrans` instead.
- The header documents `ccnl_wait_for_chunk` as returning 0 when a content arrives (src/ccnl-riot/include/ccn-lite-riot.h:231). The code returns the number of bytes copied (`RiotLink.WaitForChunk`).
- The comment above `nfn_request_intermediate_num` (src/ccnl-ext-nfnrequests.c:189-190) promises the highest *consecutive* intermediate number starting at 0. The loop computes the plain maximum of the consulted arguments, so arguments 0 and 2 give 2. The model follows the loop (`NfnRequests.HighestIntermediate`, `NfnRequests.HighestIsAttained`).
- The header documents -2, -3 and -4 for a NULL prefix, a failed dehead and a failed parse in `ccnl_send_interest` (src/ccnl-riot/include/ccn-lite-riot.h:207-211). The code returns -1 on every failure (`CcnlRiot.SendInterest`).

## Model

| member | source | states |
|---|---|---|
| CcnlTypes.LongestMatchIsExtension | src/ccnl-ext-nfnrequests.c:196 | a CMP_LONGEST comparison returns the full component count of the shorter prefix exactly when the other prefix extends it |
| CcnlTypes.CommonPrefixLenSymmetric | src/ccn-lite-riot.c:394-395 | the common-prefix count does not depend on argument order, so the NAM pass may compare content against DODAG prefix |
| Dispatch.StripMarkers | src/ccnl-fwd/src/ccnl-dispatch.c:155-156 | the inner loop consumes every leading switch marker and leaves the suite named by the last one's encoding (StripSwitch) |
| Dispatch.StripSwitchProperties | src/ccnl-fwd/src/ccnl-dispatch.c:155-156 | after stripping, no marker is left at the head; with no marker the bytes and suite are unchanged; with one the previous suite is irrelevant |
| Dispatch.RxStep | src/ccnl-fwd/src/ccnl-dispatch.c:153-181 | a packet after which the loop continues leaves a strictly shorter, non-empty remainder, so the frame loop terminates under the dispatch contract |
| Dispatch.SuiteTable.PacketStep | src/ccnl-fwd/src/ccnl-dispatch.c:153-181 | one pass of the frame loop: markers stripped, suite sniffed only while -1, abort on an unknown suite or a NULL RX entry, stop on a negative dispatch result, continue while bytes remain |
| Dispatch.SuiteTable.CoreRX | src/ccnl-fwd/src/ccnl-dispatch.c:111-182 | the sequence of forwarder calls a frame causes and how the frame ends are exactly those of the reference definition Rx |
| Dispatch.NoFaceNoCalls | src/ccnl-fwd/src/ccnl-dispatch.c:143-147 | without a face for the sender nothing is dispatched |
| Dispatch.UnknownEncodingFallsBackToSniffing | src/ccnl-fwd/src/ccnl-dispatch.c:155-158 | markers whose encoding maps to -1 leave the suite to be sniffed, and the first call then goes to the sniffed suite's RX |
| Dispatch.CallsAreRegistered | src/ccnl-fwd/src/ccnl-dispatch.c:160-171 | every call goes to a known suite and to exactly the RX function registered for it |
| Dispatch.CallsBounded | src/ccnl-fwd/src/ccnl-dispatch.c:173-181 | each call consumes at least one byte, so a remainder causes at most one call per byte |
| Dispatch.FrameCallsBounded | src/ccnl-fwd/src/ccnl-dispatch.c:143-181 | a whole frame causes at most as many forwarder calls as it has bytes |
| Dispatch.SuiteCarriedOver | src/ccnl-fwd/src/ccnl-dispatch.c:155-158 | once a suite is known and no marker appears, every later packet is handed to that suite |
| Dispatch.SuiteSniffedOnce | src/ccnl-fwd/src/ccnl-dispatch.c:129-158 | in a frame without markers every packet goes to the suite sniffed from the first packet |
| Dispatch.SuiteTable.CoreInit | src/ccnl-fwd/src/ccnl-dispatch.c:186-205 | RX and cMatch installed for CCNB, CCNTLV and NDNTLV, only RX for LOCALRPC, every other entry unchanged |
| Dispatch.InitTableHasDispatchers | src/ccnl-fwd/src/ccnl-dispatch.c:166-171 | after ccnl_core_init no frame ends for lack of a dispatcher |
| Dispatch.FirstHopMatch | src/ccnl-fwd/src/ccnl-dispatch.c:73-85 | the position of the first PIT entry, in list order, with a pending record for the hop id, or none when no entry has one |
| Dispatch.NameDecompress | src/ccnl-fwd/src/ccnl-dispatch.c:65-94 | the nested search returns the first matching entry's `nameptr[1]` name bytes taken from `nameptr + 2`, and 0 with nothing copied when none matches |
| ContentCore.ContentNew | src/ccnl-core/src/ccnl-content.c:43-72 | NULL for a NULL slot or a failed allocation, with the caller's packet kept; otherwise the content owns the packet, the caller's pointer is NULL, flags are NOT_STALE, last_used is now, tclass is the classifier of the name string |
| ContentCore.ContentFree | src/ccnl-core/src/ccnl-content.c:74-88 | -1 for NULL; 0 otherwise, releasing the packet exactly when there is one |
| ContentCore.CachePolicy.constructor | src/ccnl-core/src/ccnl-content.c:93-98 | both policy pointers start NULL |
| ContentCore.CachePolicy.SetCacheStrategyRemove | src/ccnl-core/src/ccnl-content.c:100-104 | installs the removal function and leaves the decision function |
| ContentCore.CachePolicy.SetCacheStrategyCache | src/ccnl-core/src/ccnl-content.c:106-110 | installs the decision function and leaves the removal function |
| ContentCore.CachePolicy.CacheStrategyRemove | src/ccnl-core/src/ccnl-content.c:112-119 | 0 and the store untouched with no removal function, otherwise exactly the callback's outcome |
| ContentCore.CachePolicy.CacheStrategyCache | src/ccnl-core/src/ccnl-content.c:121-135 | reliable content admitted regardless of policy; otherwise the decision function's verdict, or 1 when none is set |
| ContentCore.AdmissionCharacterised | src/ccnl-core/src/ccnl-content.c:121-135 | content is admitted iff it is reliable, no policy is set, or the policy says 1; a refusal can only come from a configured policy on unreliable content |
| ContentStore.RemoveAtProperties | src/ccnl-cs.c:34 | unlinking keeps all other entries in their original order, removes exactly one occurrence, and with distinct entries the removed one is gone |
| ContentStore.ContentRemove | src/ccnl-cs.c:27-47 | the entry is unlinked, contentcnt drops by one, the former successor (None when last) is returned, its packet released iff present, nothing else in the relay changes |
| NfnRequests.FirstNameMatch | src/ccnl-ext-nfnrequests.c:79-86 | the first table index whose name is a prefix of the component, with no earlier index matching; none when no name matches |
| NfnRequests.RequestType | src/ccnl-ext-nfnrequests.c:74-86 | UNKNOWN iff no table name is a prefix of the component; otherwise i + 1 for the first matching name i |
| NfnRequests.MatchRequestName | src/ccnl-ext-nfnrequests.c:78-86 | the table scan yields the request type and the length of the matched name |
| NfnRequests.RequestNew | src/ccnl-ext-nfnrequests.c:59-103 | NULL on a failed allocation; otherwise a fresh request with the component copied verbatim, its type, and an argument only for a known type followed by a space and at least one byte |
| NfnRequests.RequestCopy | src/ccnl-ext-nfnrequests.c:105-112 | NULL for NULL and NULL iff the allocation fails for a non-NULL request; otherwise a fresh request re-parsed from the same component, so type and argument agree with a parsed original |
| NfnRequests.SetArgInt | src/ccnl-ext-nfnrequests.c:136-145 | the argument becomes the "%d" rendering of n, get_arg_int reads back n, component and type untouched |
| CStdlib.FormatIntRoundTrip | src/ccnl-ext-nfnrequests.c:128-145 | strtol base 0 of the "%d" rendering of any 32-bit value is that value |
| CStdlib.FormatIntLength | src/ccnl-ext-nfnrequests.c:230-232 | "%d" of a 32-bit value takes at most 11 characters, so it fits the 16-byte reply |
| NfnRequests.NamedComponentType | src/ccnl-ext-nfnrequests.c:78-86 | a component starting with table name i parses as type i + 1 whatever follows, since no table name is a prefix of another |
| NfnRequests.UpdateComponent | src/ccnl-ext-nfnrequests.c:147-161 | the component is rebuilt from the table entry at index type, the separator byte and the argument, of length strlen(name) + 1 + strlen(arg); type and argument untouched |
| NfnRequests.UpdateComponentShiftsType | src/ccnl-ext-nfnrequests.c:153 | the rebuilt component re-parses as the next type, never the request's own |
| NfnRequests.UpdateComponentLosesArgument | src/ccnl-ext-nfnrequests.c:159 | with a separator byte other than a space the argument is lost on re-parsing |
| NfnRequests.UpdateComponentStartBecomesPause | src/ccnl-ext-nfnrequests.c:147-161 | a START request with argument "3" is rebuilt as "PAUSE 3" |
| NfnRequests.IntendedComponentRoundTrip | src/ccnl-ext-nfnrequests.c:147-161 | the intended rebuild (own name, a space, the argument) parses back to the same type and the same non-empty argument |
| NfnRequests.DescriptionNew | src/ccnl-ext-nfnrequests.c:163-187 | "request(NULL)" for NULL; otherwise "request(" + component part when non-empty + type name + argument ("(null)" when unset) + ")" |
| NfnRequests.DescriptionOverflowsBuffer | src/ccnl-ext-nfnrequests.c:163-187 | a 250-character unknown component makes the description exceed the 256-byte buffer |
| NfnRequests.BoundedDescriptionFits | src/ccnl-ext-nfnrequests.c:163-187 | a bounded write always fits with its NUL, is a prefix of the full text and equals it whenever that fits |
| NfnRequests.CountedByLongestMatch | src/ccnl-ext-nfnrequests.c:195-196 | the loop's test (intermediate name, CMP_LONGEST count equal to the prefix's component count) holds iff the content is an intermediate result extending the prefix |
| NfnRequests.HighestStep | src/ccnl-ext-nfnrequests.c:194-203 | one iteration of the running maximum over the content list |
| NfnRequests.IntermediateNum | src/ccnl-ext-nfnrequests.c:189-205 | the loop computes the running maximum HighestIntermediate over the content list, starting at -1: the plain maximum of the consulted arguments, not the highest consecutive number the comment above it promises |
| NfnRequests.HighestAtLeastStart | src/ccnl-ext-nfnrequests.c:193-204 | the result is never below -1 |
| NfnRequests.HighestBoundsArg | src/ccnl-ext-nfnrequests.c:194-203 | the result is at least the argument of every consulted content |
| NfnRequests.HighestIsUpperBound | src/ccnl-ext-nfnrequests.c:189-205 | the result is at least -1 and at least every consulted argument |
| NfnRequests.HighestIsAttained | src/ccnl-ext-nfnrequests.c:189-205 | the result is -1 or some consulted content's argument, and it is -1 when no content is consulted |
| NfnRequests.HandleInterest | src/ccnl-ext-nfnrequests.c:207-251 | always 0; a reply is sent iff a computation is running for a KEEPALIVE or COUNT_INTERMEDIATES request; keep-alive replies empty; the count reply is the "%d" of the maximum (empty when negative), fits 16 bytes and parses back |
| Compas.ParentTimeoutEffect | src/ccn-lite-compas.c:35-52 | a parent timeout sets FLOATING, keeps the other flag bits, rank, parent and prefix, and is idempotent |
| Compas.DodagParentTimeout | src/ccn-lite-compas.c:35-52 | the timeout field becomes 1 and FLOATING is ORed in; contents, PIT, interfaces and the NAM timer flag are untouched; the event loop's copy at src/ccn-lite-riot.c:330-347 is the same transition |
| Compas.FirstLiveFrom | src/ccn-lite-compas.c:81-89 | the first interface at or after a position with a thread |
| Compas.FirstLive | src/ccn-lite-compas.c:81-89 | the egress interface is the first with if_pid != 0 |
| Compas.EgressIface | src/ccn-lite-compas.c:142-150 | the interface scan finds FirstLive; one must exist since the code dereferences it |
| Compas.SendPam | src/ccn-lite-compas.c:54-94 | a frame is handed over iff buffer and header are allocated; it is broadcast, leaves through the first live interface and carries 0x80, CCNL_ENC_COMPAS and the PAM; the event loop's copy at src/ccn-lite-riot.c:288-328 behaves the same |
| Compas.SendNam | src/ccn-lite-compas.c:96-157 | nothing outside a DODAG or for an empty NAM; otherwise a frame to the parent's face address through the first live interface; true iff it was sent and accepted |
| CompasRiot.FirstEligibleFrom | src/ccn-lite-riot.c:389-395 | the first content at or after a position that is longer than the DODAG prefix, extends it and is not REQUESTED |
| CompasRiot.NamCandidate | src/ccn-lite-riot.c:389-395 | the content the pass stops at is the first eligible one in list order, none if no content is eligible |
| CompasRiot.EligibleByLongestMatch | src/ccn-lite-riot.c:390-395 | the loop's length test, CMP_LONGEST test and flag test together hold iff the content is eligible |
| CompasRiot.FindCandidate | src/ccn-lite-riot.c:389-395 | the scan stops at NamCandidate |
| CompasRiot.NamPassFrame | src/ccn-lite-riot.c:389-411 | a pass changes at most the first eligible content, which loses exactly one retry when it has any; exhausted, REQUESTED and non-matching contents are never modified |
| CompasRiot.NulTerminatedCopy | src/ccn-lite-riot.c:381-383 | the prefix copy plus NUL holds the same C string as the DODAG prefix |
| CompasRiot.NamPass | src/ccn-lite-riot.c:389-414 | the contents become AfterNamPass; an advertised content's path is the NAM; exhaustion leaves the NAM empty and fires the parent timeout, otherwise DODAG and timeout flag are unchanged |
| CompasRiot.SendNam | src/ccn-lite-riot.c:349-450 | nothing changes outside a DODAG or without a buffer; a NULL name runs the retry pass; a frame to the parent is attempted iff the NAM is non-empty and the header built; true iff it was sent and accepted |
| CompasRiot.TickCopyOverflows | src/ccn-lite-riot.c:686-688 | a DODAG prefix of COMPAS_NAME_LEN characters overflows the tick's buffer by its NUL, so NamTickAsWritten does not admit it, although compas_send_nam's buffer takes it |
| CompasRiot.CorrectedTickCopyFits | src/ccn-lite-riot.c:686-688 | with a COMPAS_NAME_LEN + 1 buffer every DODAG prefix fits with its NUL |
| CompasRiot.NamTick | src/ccn-lite-riot.c:683-701 | NamTickDone: below the root and without a parent timeout, the NULL-name compas_send_nam runs with its whole effect (retry pass on the contents, parent timeout on exhaustion, the frame to the parent iff the NAM is non-empty and both allocations succeed); otherwise nothing changes; the timer flag ends 1 exactly when a frame was sent |
| CompasRiot.NamTickAsWritten | src/ccn-lite-riot.c:683-701 | the same NamTickDone effect with the prefix copied into the declared COMPAS_NAME_LEN buffer, which needs a prefix shorter than COMPAS_NAME_LEN |
| CompasRiot.PamTick | src/ccn-lite-riot.c:676-682 | a PAM frame is attempted iff both allocations succeed: broadcast, through the first live interface, carrying 0x80, CCNL_ENC_COMPAS and the PAM; the timer is re-armed after the period plus a jitter below 200 ms |
| RiotLink.BufNew | src/ccn-lite-riot.c:217-229 | None iff the allocation fails; otherwise a buffer of len bytes holding data's first len bytes, or uninitialised bytes for NULL data |
| RiotLink.BroadcastScan | src/ccn-lite-riot.c:518-525 | the scan answers broadcast iff every address byte is 0xFF, so a zero-length address is broadcast |
| RiotLink.LlTx | src/ccn-lite-riot.c:453-547 | the transmit outcome is TxDecision: unknown transport, buffer full, missing header, looped back to the relay, or sent with the broadcast flag |
| RiotLink.LoopbackBeforeBroadcast | src/ccn-lite-riot.c:480-531 | a destination equal in length and bytes to the interface's own address is looped back even if all 0xFF; any other is sent, flagged broadcast iff all its bytes are 0xFF |
| RiotLink.EmptyDestination | src/ccn-lite-riot.c:480-531 | a zero-length destination is loopback on an interface without an address and broadcast otherwise |
| RiotLink.FirstPidFrom | src/ccn-lite-riot.c:588-597 | the first interface at or after a position whose thread is the sender |
| RiotLink.ArrivalIface | src/ccn-lite-riot.c:588-597 | the arrival interface is the first with the sender's pid, and 0 when none has it |
| RiotLink.ReceiveInterface | src/ccn-lite-riot.c:588-597 | the scan finds ArrivalIface |
| RiotLink.Receive | src/ccn-lite-riot.c:583-621 | the frame goes to ccnl_core_RX with the arrival interface, with the calls and ending of Rx |
| RiotLink.OpenNetif | src/ccn-lite-riot.c:232-284 | -1 when the interface is absent or the table full; -ECANCELED when a query fails; otherwise the interface is appended with its MTU, address and fwdalli, and the netreg entry is re-initialised and registered again; the failure paths leave the table and the netreg entry as they were, and the contents, PIT, DODAG and COMPAS flags are never touched |
| RiotLink.TwoInterfacesRegisterTwice | src/ccn-lite-riot.c:281-283 | opening two interfaces registers the one static netreg entry twice |
| RiotLink.FirstDecisiveFrom | src/ccn-lite-riot.c:742-778 | the first received message that ends the wait |
| RiotLink.ArmedTimeout | src/ccn-lite-riot.c:738-740 | the timeout armed is the given one, or MAX retransmissions' worth of seconds for 0 |
| RiotLink.WaitForChunk | src/ccn-lite-riot.c:733-781 | other messages are skipped; a chunk is copied truncated to the buffer, the rest untouched, and its copied length returned; a timer message gives -ETIMEDOUT with the buffer untouched; the plain RIOT relay's copy at src/ccnl-riot/src/ccn-lite-riot.c:617-665 is identical |
| RiotLink.CopyInto | src/ccn-lite-riot.c:757-758 | memcpy writes the first len bytes and leaves the rest of the buffer |
| CcnlRiot.BufNew | src/ccnl-riot/src/ccn-lite-riot.c:177-189 | None iff the allocation fails; otherwise len bytes of data, or len zero bytes for NULL data |
| CcnlRiot.BufNewVariants | src/ccnl-riot/src/ccn-lite-riot.c:177-189 | the calloc variant is the malloc variant whose memory happened to be zeroed |
| CcnlRiot.OpenNetif | src/ccnl-riot/src/ccn-lite-riot.c:192-249 | the same checks and set-up as the COMPAS build, but the netreg entry is registered only while its demux context is 0; the entry stays registered at most once; the failure paths leave the table and the netreg entry as they were, and the contents, PIT, DODAG and COMPAS flags are never touched |
| CcnlRiot.TwoInterfacesRegisterOnce | src/ccnl-riot/src/ccn-lite-riot.c:238-248 | opening two interfaces registers the netreg entry once |
| CcnlRiot.Receive | src/ccnl-riot/src/ccn-lite-riot.c:427-468 | a frame opening with 0x80 0x08 goes to HOPP and never to ccnl_core_RX; any other goes to ccnl_core_RX with the arrival interface |
| CcnlRiot.PitWithout | src/ccnl-riot/src/ccn-lite-riot.c:474 | the PIT without the interest, keeping every other entry |
| CcnlRiot.InterestRetransmit | src/ccnl-riot/src/ccn-lite-riot.c:470-486 | at MAX retries the interest is unlinked from the PIT, keeps its retries and is not propagated; otherwise retries grow by one, the retransmission timer is armed with INT_RETRANS after CCNL_INTEREST_RETRANS_TIMEOUT and it is propagated once; the contents, count, interfaces, DODAG and COMPAS flags stay, and so does the relay invariant |
| CcnlRiot.PropagationsBounded | src/ccnl-riot/src/ccn-lite-riot.c:473-485 | n retransmission messages propagate min(n, MAX - retries) times, never more than MAX in all |
| CcnlRiot.RetransmitOnEachExpiry | src/ccnl-riot/src/ccn-lite-riot.c:470-486 | running the handler on each of n expiries propagates Propagations(retries, n) times and adds that many retries, so at most MAX from a fresh interest |
| CcnlRiot.FirstPathMatchFrom | src/ccnl-riot/src/ccn-lite-riot.c:556-571 | the first content at or after a position whose path string is a prefix of the request |
| CcnlRiot.FirstPathMatch | src/ccnl-riot/src/ccn-lite-riot.c:556-586 | the content both handlers stop at is the first match in list order |
| CcnlRiot.FindByPath | src/ccnl-riot/src/ccn-lite-riot.c:556-586 | the scan finds FirstPathMatch |
| CcnlRiot.DelCs | src/ccnl-riot/src/ccn-lite-riot.c:556-571 | only the first matching content is removed; the reply is 1 iff one was removed, else 0 with the store unchanged; the PIT, interfaces, DODAG and COMPAS flags stay |
| CcnlRiot.InCs | src/ccnl-riot/src/ccn-lite-riot.c:572-586 | the same match with the store unchanged; the reply is 1 iff a content matches, else 0 |
| CcnlRiot.PathMatchIsPrefix | src/ccnl-riot/src/ccn-lite-riot.c:556-571 | a content matches iff its path string is a prefix of the request, so an empty path matches every request |
| CcnlRiot.OptsCell.constructor | src/ccnl-riot/src/ccn-lite-riot.c:669-737 | a caller's options object |
| CcnlRiot.EffectiveOpts | src/ccnl-riot/src/ccn-lite-riot.c:676-699 | missing options default to nonce 0, not must-be-fresh and the default lifetime; a zero nonce is replaced by the random one |
| CcnlRiot.SendInterest | src/ccnl-riot/src/ccn-lite-riot.c:669-737 | -1 for a suite other than NDN TLV and for every failure before posting; otherwise the interest built with EffectiveOpts is posted and 0 returned whatever msg_send does |
| CcnlRiotHeader.Without | src/ccnl-riot/include/ccn-lite-riot.h:354-355 | evtimer_del: the event is no longer armed and every other armed event stays |
| CcnlRiotHeader.RearmArmsOnce | src/ccnl-riot/include/ccn-lite-riot.h:295-344 | delete-then-add leaves the event armed exactly once whether or not it was armed, keeps every other event and adds no duplicate |
| CcnlRiotHeader.WithoutKeepsDistinct | src/ccnl-riot/include/ccn-lite-riot.h:295-344 | deleting an event keeps the armed events free of duplicates |
| CcnlRiotHeader.EvTimer.Del | src/ccnl-riot/include/ccn-lite-riot.h:297 | the armed events lose exactly the deleted one |
| CcnlRiotHeader.EvTimer.AddMsg | src/ccnl-riot/include/ccn-lite-riot.h:301 | the event is appended to the armed events |
| CcnlRiotHeader.RearmEvent | src/ccnl-riot/include/ccn-lite-riot.h:295-302 | delete, set type, pointer and offset, add: the armed events become Rearm |
| CcnlRiotHeader.ResetInterestRetrans | src/ccnl-riot/include/ccn-lite-riot.h:295-302 | the retransmission event is re-armed once with INT_RETRANS, pointer i and offset CCNL_INTEREST_RETRANS_TIMEOUT |
| CcnlRiotHeader.ResetInterestTimeout | src/ccnl-riot/include/ccn-lite-riot.h:309-316 | the timeout event is re-armed once with INT_TIMEOUT after lifetime * 1000 |
| CcnlRiotHeader.ResetFaceTimeout | src/ccnl-riot/include/ccn-lite-riot.h:323-330 | the face's event is re-armed once with FACE_TIMEOUT after CCNL_FACE_TIMEOUT * 1000 |
| CcnlRiotHeader.SetCsTimeout | src/ccnl-riot/include/ccn-lite-riot.h:337-344 | the content's event is re-armed once with CS_DEL carrying its prefix after CCNL_CONTENT_TIMEOUT * 1000 |
| CcnlRiotHeader.InterestRemove | src/ccnl-riot/include/ccn-lite-riot.h:352-367 | both timers deleted; afterwards no slot 0..mask points at the interest: those that did are zeroed, the others and every slot beyond mask are untouched |
| CcnlRiotHeader.CounterOfInjective | src/ccnl-riot/include/ccn-lite-riot.h:387-512 | different print helpers bump different counters, and the two device counters have no helper |
| CcnlRiotHeader.Inc32 | src/ccnl-riot/include/ccn-lite-riot.h:369-385 | a uint32_t counter increment: one more, wrapping to 0 at 2^32 - 1 |
| CcnlRiotHeader.Bump | src/ccnl-riot/include/ccn-lite-riot.h:387-512 | one counter goes up by one and every other keeps its value |
| CcnlRiotHeader.Stats.constructor | src/ccnl-riot/include/ccn-lite-riot.h:369-385 | every counter starts at zero |
| CcnlRiotHeader.Stats.Print | src/ccnl-riot/include/ccn-lite-riot.h:387-512 | a print_* helper increments exactly its own counter |

## Left out

- Printing and logging (`printf`, `DEBUGMSG`, `puts`, `print_accumulated_stats`): they produce output only.
- Blocking `msg_receive`/`msg_send`, threads and the evtimer's expiry order and target pid: the model takes the messages received, the send results and the set of armed events as given.
- `irq_disable`/`irq_restore` around the queue purge: concurrency is not modelled.
- Randomness: the nonce of `ccnl_send_interest` and the PAM jitter are parameters.
- ICN LoWPAN decoding (`icnl_decode`) at the head of `ccnl_core_RX`, and the statistics of `USE_STATS`: these are compile-time options around the demultiplexer.
- The NDN TLV encoders and parsers are stubs in this repository. They appear as parameters: `ccnl_ndntlv_bytes2pkt` is a function that may yield nothing, and `ccnl_ndntlv_dehead` is a boolean.
- The `ccnl_do_ageing` call and the ageing-timer reset in the event loop: `ccnl_do_ageing`'s code is not part of this model.
- `nfn_request_free`: it only releases memory, which has no counterpart under garbage collection.
- `ccnl_interest_remove`: only the unlinking from the PIT is modelled (`CcnlRiot.PitWithout`), because its code is not part of this model.
- CcnlRiot.InterestRetransmit: on removal the model says nothing about the armed events or the message queue afterwards. `ccnl_interest_remove`'s code, which may call the RIOT removal hook (`CcnlRiotHeader.InterestRemove`), is not part of this model.
- The documented promise of a cache removal callback (src/ccnl-riot/include/ccn-lite-riot.h:236-249) is a promise of the callback, not of the relay: `CacheStrategyRemove` passes its outcome through unchanged.
- `ccnl_set_callback_content_add` and the plain RIOT relay's second copies of the cache-strategy setters and hooks (src/ccnl-riot/src/ccn-lite-riot.c:740-767): the copies are the same as those modelled in ContentCore.
- The retransmission statistics counter of `MODULE_PKTCNT_FAST` and the `NETOPT_PROTO` set call in `ccnl_open_netif`: both are side effects on other modules.
- RiotLink.BufNew: the bytes malloc leaves in a buffer for NULL data are a parameter.
- CcnlRiot.InterestRetransmit: requires the retransmission event not to be armed. The code adds `retrans_timer` without deleting it, and the model cannot say what the evtimer does with an event that is added twice.
- CcnlRiot.SendInterest: requires a prefix for the NDN TLV suite, because the chunk number is read through the prefix before its NULL test. The encoding `ccnl_mkInterest` is a parameter.
- CcnlRiot.Receive: requires at least two bytes, because the HOPP test reads the frame's first two bytes unconditionally.
- RiotLink.LlTx: requires the loopback header build to succeed, because the loopback path writes through the header without a NULL test.
- RiotLink.LlTx: the removal and re-setting of the one-second ageing timer at the start of every transmission (src/ccn-lite-riot.c:460-462) is not modelled, because timers other than the evtimer are outside the model.
- ContentCore.ContentNew: requires a non-NULL slot to hold a packet, because the code dereferences `*pkt` without a test.
- Dispatch.NameDecompress: requires the matching entry's encoded name to hold the bytes its length byte announces (DecompressibleAt), because the copy reads that many bytes unchecked.
- RiotLink.WaitForChunk: requires a chunk or a timer message among those received. The code re-arms its wait timer before every receive, so a steady stream of other messages keeps it waiting forever; the model does not cover that non-terminating run.
- CompasRiot.NamTick: copies the DODAG prefix into a COMPAS_NAME_LEN + 1 buffer, the corrected size (see Findings); NamTickAsWritten is the code's COMPAS_NAME_LEN version.
- CompasRiot.SendNam: `compas_nam_create` is taken to leave an empty NAM, so the NAM is empty unless a name is added. The COMPAS encoders' byte layout is not modelled.
- Compas.SendNam: models `src/ccn-lite-compas.c:107-108` with the evidently intended arguments, since as written the call does not compile.
- CcnlRiot.DelCs and CcnlRiot.InCs: the reply message's type and the message queue are not modelled; only the reply value and the effect on the store are.
- NfnRequests.DescriptionNew: prints "(null)" for an unset argument, as common C libraries do for `%s` with a NULL pointer; in C that case is undefined behaviour.
- NfnRequests.BoundedDescriptionFits: the corrected description is a truncating definition, so that it fits holds by construction; what it adds is that the text is a prefix of the full one and equal to it whenever that fits.
- NfnRequests.IntermediateNum and NfnRequests.HandleInterest: require every cached content to have a packet and every consulted content to carry a request with an argument (AllReadable), and HandleInterest requires the interest to carry a request, because the code dereferences `c->pkt`, `request` and `request->arg` unconditionally.
- The store invariant that every cached content has a packet (`CcnlTypes.AllHavePackets`) is a precondition of CcnlRiot.DelCs, CcnlRiot.InCs, CcnlRiot.FindByPath, CompasRiot.NamPass, CompasRiot.FindCandidate, CompasRiot.SendNam and the NAM ticks, because their loops dereference `c->pkt->pfx` without a test. The model does not prove that the relay's other operations keep it.
- NfnRequests.UpdateComponent: requires the type to index the table in bounds (below GIM) and an argument to be present, because the code reads `names[type]` and `strlen(arg)` unconditionally.

## Findings

| source | as written | input that shows it | evidently intended | confidence | as-written member | corrected member |
|---|---|---|---|---|---|---|
| src/ccnl-ext-nfnrequests.c:153 | `nfn_request_update_component` takes the command name at `nfn_request_names[type]`, but the table holds type t at index t - 1 | a START request with argument "3" is rebuilt as "PAUSE 3"; for GIM the index is out of bounds | the name at index type - 1, so that the rebuilt component parses back to the same type | high, not executed | NfnRequests.UpdateComponentShiftsType | NfnRequests.IntendedComponentRoundTrip |
| src/ccnl-ext-nfnrequests.c:159 | the separator is `(unsigned char)" "`, the low byte of a string literal's address | any request whose literal address does not end in 0x20: re-parsing finds no space and loses the argument | the space character `' '` | high, not executed | NfnRequests.UpdateComponentLosesArgument | NfnRequests.IntendedComponentRoundTrip |
| src/ccnl-ext-nfnrequests.c:163-187 | `nfn_request_description_new` appends with unbounded `sprintf` into a 256-byte buffer | an unknown request with a 250-character component | bounded writes that keep the text and its NUL within 256 bytes | high, not executed | NfnRequests.DescriptionOverflowsBuffer | NfnRequests.BoundedDescriptionFits |
| src/ccn-lite-riot.c:686-688 | the NAM tick copies the DODAG prefix into `char dodag_prefix[COMPAS_NAME_LEN]` and writes a NUL at index `prefix_len` (NamTickAsWritten admits only shorter prefixes) | a DODAG prefix of COMPAS_NAME_LEN characters, which compas_send_nam's own `COMPAS_NAME_LEN + 1` buffer accepts; whether the COMPAS DODAG structure lets `prefix_len` reach that length is not part of this model | a buffer of COMPAS_NAME_LEN + 1 characters | medium, not executed | CompasRiot.TickCopyOverflows | CompasRiot.CorrectedTickCopyFits |
| src/ccn-lite-riot.c:281-283 | the COMPAS build's `ccnl_open_netif` re-initialises and registers the single static netreg entry on every call | opening two interfaces for the same nettype | register once, as the plain RIOT relay does when the entry's demux context is still 0 | medium, not executed | RiotLink.TwoInterfacesRegisterTwice | CcnlRiot.TwoInterfacesRegisterOnce |

=== FILE: ccnl_riot.dfy ===
/*
 * The RIOT adaptation of the plain relay: buffer allocation, opening an
 * interface with a single netreg registration, the receive callback's
 * HOPP diversion, the interest retransmission rule, the event loop's
 * content-store delete and lookup handlers, and the creation of an
 * interest by an application (ccnl_send_interest).
 */
module CcnlRiot {
  import opened CcnlTypes
  import opened CStdlib
  import Dispatch
  import ContentStore
  import RiotLink
  import opened CcnlRiotHeader

  // ---------------------------------------------------------------------
  // Buffers

  /**
   * ccnl_buf_new(data, len) with calloc: `data`'s first `len` bytes, or
   * `len` zero bytes when `data` is NULL; None when the allocation fails.
   */
  function BufNew(data: Option<seq<byte>>, len: nat, allocOk: bool): (b: Option<RiotLink.Buf>)
    requires data.Some? ==> len <= |data.value|
    ensures b.Some? <==> allocOk
    ensures b.Some? ==> |b.value.data| == len
    ensures b.Some? && data.Some? ==> b.value.data == data.value[..len]
    ensures b.Some? && data.None? ==> forall k :: 0 <= k < len ==> b.value.data[k] == 0
  {
    if !allocOk then None
    else if data.Some? then Some(RiotLink.Buf(data.value[..len]))
    else Some(RiotLink.Buf(seq(len, _ => 0)))
  }

  /**
   * The calloc and the malloc variants of ccnl_buf_new build the same
   * buffer from data, and the calloc one is the malloc one whose
   * allocator happened to hand out zeroed memory.
   */
  lemma BufNewVariants(data: Option<seq<byte>>, len: nat, allocOk: bool)
    requires data.Some? ==> len <= |data.value|
    ensures data.Some? ==> BufNew(data, len, allocOk) == RiotLink.BufNew(data, len, allocOk, seq(len, _ => 0))
    ensures BufNew(None, len, allocOk) == RiotLink.BufNew(None, len, allocOk, seq(len, _ => 0))
  {
  }

  // ---------------------------------------------------------------------
  // Opening an interface

  /** The netreg entry is either untouched or registered exactly once. */
  predicate RegisteredOnce(ne: NetregEntry)
    reads ne
  {
    (ne.demuxCtx == 0 && ne.registrations == []) ||
    (ne.demuxCtx == RiotLink.GNRC_NETREG_DEMUX_CTX_ALL && |ne.registrations| == 1)
  }

  /**
   * ccnl_open_netif(if_pid, netreg_type): the same checks and interface
   * set-up as the COMPAS build, but the netreg entry is initialised and
   * registered only while its demultiplexing context is still 0; later
   * interfaces return 0 without registering.
   */
  method OpenNetif(relay: Relay, ne: NetregEntry, ifPid: int, nettype: int, eventLoopPid: int,
                   present: bool, info: RiotLink.NetifInfo, registerRes: int)
    returns (r: int)
    requires relay.Valid() && RegisteredOnce(ne)
    modifies relay, ne
    ensures relay.Valid() && RegisteredOnce(ne)
    ensures relay.contents == old(relay.contents) && relay.contentcnt == old(relay.contentcnt)
    ensures relay.pit == old(relay.pit) && relay.dodag == old(relay.dodag)
    ensures relay.compasDodagParentTimeout == old(relay.compasDodagParentTimeout) &&
      relay.compasNamTimerRunning == old(relay.compasNamTimerRunning)
    ensures !present || |old(relay.ifs)| >= CCNL_MAX_INTERFACES ==>
      r == -1 && relay.ifs == old(relay.ifs) && ne.registrations == old(ne.registrations) &&
      ne.demuxCtx == old(ne.demuxCtx) && ne.pid == old(ne.pid)
    ensures present && |old(relay.ifs)| < CCNL_MAX_INTERFACES && !RiotLink.Answered(info) ==>
      r == -(ECANCELED as int) && relay.ifs == old(relay.ifs) && ne.registrations == old(ne.registrations) &&
      ne.demuxCtx == old(ne.demuxCtx) && ne.pid == old(ne.pid)
    ensures present && |old(relay.ifs)| < CCNL_MAX_INTERFACES && RiotLink.Answered(info) ==>
      relay.ifs == old(relay.ifs) + [Iface(ifPid, info.mtu, info.addr, 1)] &&
      (old(ne.demuxCtx) == 0 ==>
         ne.demuxCtx == RiotLink.GNRC_NETREG_DEMUX_CTX_ALL &&
         ne.registrations == [nettype] && ne.pid == eventLoopPid && r == registerRes) &&
      (old(ne.demuxCtx) != 0 ==>
         ne.demuxCtx == old(ne.demuxCtx) &&
         ne.registrations == old(ne.registrations) && ne.pid == old(ne.pid) && r == 0)
  {
    if !present {
      return -1;
    }
    if |relay.ifs| >= CCNL_MAX_INTERFACES {
      return -1;
    }
    if info.mtuRes < 0 || info.addrLenRes < 0 || info.addrRes < 0 {
      return -(ECANCELED as int);
    }
    relay.ifs := relay.ifs + [Iface(ifPid, info.mtu, info.addr, 1)];
    if ne.demuxCtx == 0 {
      ne.demuxCtx := RiotLink.GNRC_NETREG_DEMUX_CTX_ALL;
      ne.pid := eventLoopPid;
      ne.registrations := ne.registrations + [nettype];
      return registerRes;
    }
    return 0;
  }

  /** Opening two interfaces registers the static netreg entry once. */
  method TwoInterfacesRegisterOnce(nettype: int, info: RiotLink.NetifInfo, dodag: Dodag)
    returns (registrations: seq<int>)
    requires CCNL_MAX_INTERFACES >= 2 && RiotLink.Answered(info)
    ensures registrations == [nettype]
  {
    var relay := new Relay(dodag);
    var ne := new NetregEntry();
    var r1 := OpenNetif(relay, ne, 5, nettype, 3, true, info, 0);
    var r2 := OpenNetif(relay, ne, 6, nettype, 3, true, info, 0);
    registrations := ne.registrations;
  }

  // ---------------------------------------------------------------------
  // Receiving

  /** A frame for the HOPP routing layer: it opens with the bytes 0x80 0x08. */
  predicate IsHoppFrame(data: seq<byte>)
    requires |data| >= 2
  {
    data[0] == 0x80 && data[1] == 0x08
  }

  /** Where _receive hands a frame. */
  datatype RiotRx =
    | ToHopp(released: bool)                             // dispatched to HOPP; released if nobody took it
    | ToCore(ifndx: nat, result: Dispatch.RxResult)      // processed by ccnl_core_RX

  /**
   * _receive(ccnl, m): the arrival interface is looked up as in the
   * COMPAS build; a HOPP frame is dispatched to GNRC_NETTYPE_CCN_HOPP
   * (`hoppTakers` is how many subscribers took it) and never reaches the
   * relay; any other frame goes to ccnl_core_RX. The test reads the
   * frame's first two bytes.
   */
  method Receive(suites: Dispatch.SuiteTable, relay: Relay, w: Dispatch.Wire, senderPid: int,
                 data: seq<byte>, hasFace: bool, hoppTakers: int)
    returns (out: RiotRx)
    requires suites.Valid() && Dispatch.WellBehaved(w) && |data| >= 2
    ensures IsHoppFrame(data) ==> out == ToHopp(hoppTakers == 0)
    ensures !IsHoppFrame(data) ==>
      out == ToCore(RiotLink.ArrivalIface(relay.ifs, senderPid),
                    Dispatch.Rx(w, suites.suites[..], hasFace, data))
  {
    var i := RiotLink.ReceiveInterface(relay.ifs, senderPid);
    if data[0] == 0x80 && data[1] == 0x08 {
      out := ToHopp(hoppTakers == 0);
    } else {
      var r := suites.CoreRX(w, hasFace, data);
      out := ToCore(i, r);
    }
  }

  // ---------------------------------------------------------------------
  // Interest retransmission

  /** The PIT with interest `i` unlinked (ccnl_interest_remove). */
  function PitWithout(pit: seq<Interest>, i: Interest): (r: seq<Interest>)
    ensures i !in r
    ensures forall j :: 0 <= j < |r| ==> r[j] in pit
    ensures forall k :: 0 <= k < |pit| && pit[k] != i ==> pit[k] in r
  {
    if |pit| == 0 then []
    else if pit[0] == i then PitWithout(pit[1..], i)
    else [pit[0]] + PitWithout(pit[1..], i)
  }

  /**
   * ccnl_interest_retransmit(relay, i) on an INT_RETRANS message. Once
   * `retries` has reached CCNL_MAX_INTEREST_RETRANSMIT the interest is
   * removed and not propagated. Otherwise its retransmission timer is set
   * to INT_RETRANS for `i` after CCNL_INTEREST_RETRANS_TIMEOUT and added
   * (without a prior delete: the event must not be armed), `retries`
   * grows by one and the interest is propagated once (`propagated`).
   */
  method InterestRetransmit(relay: Relay, et: EvTimer, i: Interest) returns (propagated: bool)
    requires et.Valid() && i.retransTimer !in et.events
    modifies relay, et, i, i.retransTimer
    ensures et.Valid()
    ensures old(relay.Valid()) ==> relay.Valid()
    ensures relay.contents == old(relay.contents) && relay.contentcnt == old(relay.contentcnt)
    ensures relay.ifs == old(relay.ifs) && relay.dodag == old(relay.dodag)
    ensures relay.compasDodagParentTimeout == old(relay.compasDodagParentTimeout) &&
      relay.compasNamTimerRunning == old(relay.compasNamTimerRunning)
    ensures propagated <==> old(i.retries) < CCNL_MAX_INTEREST_RETRANSMIT
    ensures !propagated ==>
      relay.pit == PitWithout(old(relay.pit), i) && i.retries == old(i.retries)
    ensures propagated ==>
      relay.pit == old(relay.pit) && i.retries == old(i.retries) + 1 &&
      et.events == old(et.events) + [i.retransTimer] &&
      i.retransTimer.msgType == CCNL_MSG_INT_RETRANS && i.retransTimer.ptr == ToInterest(i) &&
      i.retransTimer.offset == CCNL_INTEREST_RETRANS_TIMEOUT
  {
    if i.retries >= CCNL_MAX_INTEREST_RETRANSMIT {
      relay.pit := PitWithout(relay.pit, i);
      return false;
    }
    i.retransTimer.msgType := CCNL_MSG_INT_RETRANS;
    i.retransTimer.ptr := ToInterest(i);
    i.retransTimer.offset := CCNL_INTEREST_RETRANS_TIMEOUT;
    et.AddMsg(i.retransTimer);
    i.retries := i.retries + 1;
    propagated := true;
  }

  /**
   * How many of `n` successive INT_RETRANS messages for an interest with
   * `retries` retries so far lead to a propagation: each one while below
   * the bound propagates and counts one retry; the first one at the
   * bound removes the interest, after which no message concerns it.
   */
  function Propagations(retries: nat, n: nat): nat
    decreases n
  {
    if n == 0 || retries >= CCNL_MAX_INTEREST_RETRANSMIT then 0
    else 1 + Propagations(retries + 1, n - 1)
  }

  /**
   * The INT_RETRANS messages of one interest, handled one after another:
   * before each, the retransmission event expires, which takes it off the
   * armed events, and then ccnl_interest_retransmit runs. After the first
   * message that finds the bound reached, the interest is gone and no
   * further message arrives for it. The number of propagations is
   * Propagations, hence at most CCNL_MAX_INTEREST_RETRANSMIT.
   */
  method RetransmitOnEachExpiry(relay: Relay, et: EvTimer, i: Interest, n: nat) returns (propagated: nat)
    requires et.Valid()
    modifies relay, et, i, i.retransTimer
    ensures propagated == Propagations(old(i.retries), n)
    ensures i.retries == old(i.retries) + propagated
    ensures old(i.retries) <= CCNL_MAX_INTEREST_RETRANSMIT ==> propagated <= CCNL_MAX_INTEREST_RETRANSMIT
  {
    propagated := 0;
    var k := 0;
    var removed := false;
    while k < n && !removed
      invariant 0 <= k <= n
      invariant et.Valid()
      invariant i.retries == old(i.retries) + propagated
      invariant !removed ==> propagated + Propagations(i.retries, n - k) == Propagations(old(i.retries), n)
      invariant removed ==> propagated == Propagations(old(i.retries), n)
      decreases n - k
    {
      et.Del(i.retransTimer);
      var p := InterestRetransmit(relay, et, i);
      if p {
        propagated := propagated + 1;
      } else {
        removed := true;
      }
      k := k + 1;
    }
    if old(i.retries) <= CCNL_MAX_INTEREST_RETRANSMIT {
      PropagationsBounded(old(i.retries), n);
    }
  }

  function Min(a: nat, b: nat): nat
  {
    if a < b then a else b
  }

  /**
   * An interest is retransmitted as often as messages arrive, up to the
   * remaining budget: never more than CCNL_MAX_INTEREST_RETRANSMIT times
   * in all from a fresh interest.
   */
  lemma {:induction false} PropagationsBounded(retries: nat, n: nat)
    requires retries <= CCNL_MAX_INTEREST_RETRANSMIT
    ensures Propagations(retries, n) == Min(n, CCNL_MAX_INTEREST_RETRANSMIT - retries)
    ensures Propagations(retries, n) <= CCNL_MAX_INTEREST_RETRANSMIT
    decreases n
  {
    if n > 0 && retries < CCNL_MAX_INTEREST_RETRANSMIT {
      PropagationsBounded(retries + 1, n - 1);
    }
  }

  // ---------------------------------------------------------------------
  // Content-store delete and lookup by name string

  /**
   * A content matches a request string when its name's path string
   * (`toPath` is ccnl_prefix_to_path, read up to its NUL) is a prefix of
   * the request: memcmp over the path's length, where the request's own
   * NUL ends any longer path's chance.
   */
  predicate PathMatch(c: Content, req: string, toPath: Prefix -> string)
    requires c.pkt.Some?
  {
    var s := CString(toPath(c.pkt.value.pfx));
    |s| <= |req| && req[..|s|] == s
  }

  /** The first content at or after `from` that matches the request. */
  function FirstPathMatchFrom(cs: seq<Content>, req: string, toPath: Prefix -> string, from: nat)
    : (r: Option<nat>)
    requires from <= |cs| && AllHavePackets(cs)
    ensures r.Some? ==> from <= r.value < |cs| && PathMatch(cs[r.value], req, toPath)
    ensures r.Some? ==> forall j :: from <= j < r.value ==> !PathMatch(cs[j], req, toPath)
    ensures r.None? ==> forall j :: from <= j < |cs| ==> !PathMatch(cs[j], req, toPath)
    decreases |cs| - from
  {
    if from == |cs| then None
    else if PathMatch(cs[from], req, toPath) then Some(from)
    else FirstPathMatchFrom(cs, req, toPath, from + 1)
  }

  /** The content both handlers stop at: the first match in list order. */
  function FirstPathMatch(cs: seq<Content>, req: string, toPath: Prefix -> string): (r: Option<nat>)
    requires AllHavePackets(cs)
    ensures r.Some? ==> r.value < |cs| && PathMatch(cs[r.value], req, toPath)
    ensures r.Some? ==> forall j :: 0 <= j < r.value ==> !PathMatch(cs[j], req, toPath)
    ensures r.None? ==> forall j :: 0 <= j < |cs| ==> !PathMatch(cs[j], req, toPath)
  {
    FirstPathMatchFrom(cs, req, toPath, 0)
  }

  /** The scan over `ccnl->contents` shared by the two handlers. */
  method FindByPath(cs: seq<Content>, req: string, toPath: Prefix -> string) returns (found: Option<nat>)
    requires AllHavePackets(cs)
    ensures found == FirstPathMatch(cs, req, toPath)
  {
    var i := 0;
    while i < |cs|
      invariant 0 <= i <= |cs|
      invariant FirstPathMatchFrom(cs, req, toPath, i) == FirstPathMatch(cs, req, toPath)
      decreases |cs| - i
    {
      var spref := CString(toPath(cs[i].pkt.value.pfx));
      if |spref| <= |req| && req[..|spref|] == spref {
        return Some(i);
      }
      i := i + 1;
    }
    return None;
  }

  /**
   * The CCNL_MSG_DEL_CS handler: the first content whose path string is a
   * prefix of the request is removed from the store (and only that one);
   * the reply value is 1 exactly when one was removed, 0 otherwise.
   */
  method DelCs(relay: Relay, req: string, toPath: Prefix -> string) returns (reply: int)
    requires relay.Valid() && AllHavePackets(relay.contents)
    modifies relay
    ensures relay.Valid()
    ensures reply == 1 <==> FirstPathMatch(old(relay.contents), req, toPath).Some?
    ensures reply == 0 || reply == 1
    ensures FirstPathMatch(old(relay.contents), req, toPath).Some? ==>
      relay.contents ==
      ContentStore.RemoveAt(old(relay.contents), FirstPathMatch(old(relay.contents), req, toPath).value)
    ensures FirstPathMatch(old(relay.contents), req, toPath).None? ==>
      relay.contents == old(relay.contents)
    ensures relay.pit == old(relay.pit) && relay.ifs == old(relay.ifs) && relay.dodag == old(relay.dodag)
    ensures relay.compasDodagParentTimeout == old(relay.compasDodagParentTimeout) &&
      relay.compasNamTimerRunning == old(relay.compasNamTimerRunning)
  {
    reply := 0;
    var found := FindByPath(relay.contents, req, toPath);
    if found.Some? {
      var next, released := ContentStore.ContentRemove(relay, found.value);
      reply := 1;
    }
  }

  /**
   * The CCNL_MSG_IN_CS handler: the same match; the store is left as it
   * is and the reply value is 1 exactly when a content matches.
   */
  method InCs(relay: Relay, req: string, toPath: Prefix -> string) returns (reply: int)
    requires AllHavePackets(relay.contents)
    ensures reply == 1 <==> FirstPathMatch(relay.contents, req, toPath).Some?
    ensures reply == 0 <==> FirstPathMatch(relay.contents, req, toPath).None?
  {
    reply := 0;
    var found := FindByPath(relay.contents, req, toPath);
    if found.Some? {
      reply := 1;
    }
  }

  /**
   * A content whose path string is empty matches every request, and a
   * request matches any content whose path is one of its prefixes, not
   * only one equal to it.
   */
  lemma {:induction false} PathMatchIsPrefix(c: Content, req: string, toPath: Prefix -> string, k: nat)
    requires c.pkt.Some? && k <= |req|
    ensures CString(toPath(c.pkt.value.pfx)) == [] ==> PathMatch(c, req, toPath)
    ensures CString(toPath(c.pkt.value.pfx)) == req[..k] ==> PathMatch(c, req, toPath)
    ensures PathMatch(c, req, toPath) ==> CString(toPath(c.pkt.value.pfx)) == req[..|CString(toPath(c.pkt.value.pfx))|]
  {
    var s := CString(toPath(c.pkt.value.pfx));
    if s == req[..k] {
      assert |s| == k;
    }
  }

  // ---------------------------------------------------------------------
  // Sending an interest

  /** The NDN interest options (the `ndntlv` member of ccnl_interest_opts_u). */
  datatype InterestOpts = InterestOpts(nonce: uint32, mustBeFresh: bool, lifetime: nat)

  /** The caller's options object; send_interest writes a fresh nonce back into it. */
  class OptsCell {
    var opts: InterestOpts

    constructor (opts: InterestOpts)
      ensures this.opts == opts
    {
      this.opts := opts;
    }
  }

  function OptsOf(cell: OptsCell?): Option<InterestOpts>
    reads cell
  {
    if cell == null then None else Some(cell.opts)
  }

  /**
   * The options an interest is built with: the caller's, or nonce 0,
   * not-must-be-fresh and the default lifetime when there are none; a
   * zero nonce is replaced by `random`.
   */
  function EffectiveOpts(given: Option<InterestOpts>, random: uint32): (o: InterestOpts)
    ensures given.None? ==>
      !o.mustBeFresh && o.lifetime == NDN_DEFAULT_INTEREST_LIFETIME && o.nonce == random
    ensures given.Some? ==>
      o.mustBeFresh == given.value.mustBeFresh && o.lifetime == given.value.lifetime
    ensures given.Some? && given.value.nonce != 0 ==> o.nonce == given.value.nonce
    ensures given.Some? && given.value.nonce == 0 ==> o.nonce == random
  {
    var o := if given.Some? then given.value else InterestOpts(0, false, NDN_DEFAULT_INTEREST_LIFETIME);
    if o.nonce == 0 then o.(nonce := random) else o
  }

  /** What is posted to the event loop: the parsed interest and its destination face. */
  datatype Posted = Posted(pkt: Packet, to: Face?)

  /**
   * ccnl_send_interest(prefix, buf, buf_len, int_opts, to). `suite` is
   * the configured suite; `mkInterest` is ccnl_mkInterest's encoding,
   * `headerOk` whether ccnl_ndntlv_dehead succeeds with a length that
   * fits, `bytes2pkt` ccnl_ndntlv_bytes2pkt, `random` random_uint32's
   * value and `sendRes` msg_send's. Only NDN TLV is supported (-1
   * otherwise). The chunk number is read through `prefix` before the
   * NULL test, so with that suite the prefix must be present. The result
   * is 0 once the interest is posted, whatever msg_send returns, and -1
   * on every earlier failure.
   */
  method SendInterest(suite: int, prefix: Option<Prefix>, cell: OptsCell?, to: Face?, random: uint32,
                      mkInterest: (Prefix, InterestOpts) -> seq<byte>, headerOk: bool,
                      bytes2pkt: seq<byte> -> Option<Packet>, sendRes: int)
    returns (ret: int, posted: Option<Posted>)
    requires suite == Dispatch.CCNL_SUITE_NDNTLV ==> prefix.Some?
    modifies cell
    ensures ret == 0 <==> posted.Some?
    ensures ret == 0 || ret == -1
    ensures suite != Dispatch.CCNL_SUITE_NDNTLV ==> ret == -1 && OptsOf(cell) == old(OptsOf(cell))
    ensures suite == Dispatch.CCNL_SUITE_NDNTLV ==>
      var eff := EffectiveOpts(old(OptsOf(cell)), random);
      (cell != null ==> cell.opts == eff) &&
      (posted.Some? <==> headerOk && bytes2pkt(mkInterest(prefix.value, eff)).Some?) &&
      (posted.Some? ==> posted.value == Posted(bytes2pkt(mkInterest(prefix.value, eff)).value, to))
  {
    var defaults := InterestOpts(0, false, NDN_DEFAULT_INTEREST_LIFETIME);
    if suite != Dispatch.CCNL_SUITE_NDNTLV {
      return -1, None;
    }
    var chunk := prefix.value.chunknum;
    var opts := defaults;
    if cell != null {
      opts := cell.opts;
    }
    if opts.nonce == 0 {
      opts := opts.(nonce := random);
      if cell != null {
        cell.opts := opts;
      }
    }
    var bytes := mkInterest(prefix.value, opts);
    if !headerOk {
      return -1, None;
    }
    var pkt := bytes2pkt(bytes);
    if pkt.None? {
      return -1, None;
    }
    posted := Some(Posted(pkt.value, to));
    ret := 0;
  }
}

=== FILE: ccnl_riot_header.dfy ===
/*
 * The inline helpers of the RIOT adaptation header: the evtimer re-arm
 * helpers for interests, faces and contents, the purge of a removed
 * interest from the event loop's message queue, and the event counters
 * bumped by the print_* helpers. The evtimer is modelled by the events it
 * holds armed; their ordering by expiry is not modelled.
 */
module CcnlRiotHeader {
  import opened CcnlTypes

  /** CCNL_QUEUE_SIZE: slots of the event loop's message queue. */
  const CCNL_QUEUE_SIZE: nat := 8
  /** CCNL_INTEREST_RETRANS_TIMEOUT, in milliseconds. */
  const CCNL_INTEREST_RETRANS_TIMEOUT: nat := 1000

  /** The relay's message types. */
  const CCNL_MSG_TIMEOUT: int := 0x1701
  const CCNL_MSG_AGEING: int := 0x1702
  const CCNL_MSG_INT_RETRANS: int := 0x1703
  const CCNL_MSG_CS_ADD: int := 0x1704
  const CCNL_MSG_CS_DEL: int := 0x1705
  const CCNL_MSG_CS_LOOKUP: int := 0x1706
  const CCNL_MSG_INT_TIMEOUT: int := 0x1707
  const CCNL_MSG_FACE_TIMEOUT: int := 0x1708

  // ---------------------------------------------------------------------
  // Armed events

  /** `s` with every occurrence of event `e` taken out. */
  function Without(s: seq<TimerEvent>, e: TimerEvent): (r: seq<TimerEvent>)
    ensures e !in r
    ensures forall j :: 0 <= j < |r| ==> r[j] in s
    ensures forall k :: 0 <= k < |s| && s[k] != e ==> s[k] in r
    ensures |r| <= |s|
  {
    if |s| == 0 then []
    else if s[0] == e then Without(s[1..], e)
    else [s[0]] + Without(s[1..], e)
  }

  /** No event is armed twice. */
  predicate NoDuplicates(s: seq<TimerEvent>)
  {
    forall i, j :: 0 <= i < j < |s| ==> s[i] != s[j]
  }

  /** Deleting an event and adding it back: what every re-arm helper does to the armed set. */
  function Rearm(s: seq<TimerEvent>, e: TimerEvent): seq<TimerEvent>
  {
    Without(s, e) + [e]
  }

  lemma {:induction false} WithoutKeepsDistinct(s: seq<TimerEvent>, e: TimerEvent)
    requires NoDuplicates(s)
    ensures NoDuplicates(Without(s, e))
    decreases |s|
  {
    if |s| > 0 {
      assert NoDuplicates(s[1..]) by {
        forall i, j | 0 <= i < j < |s| - 1
          ensures s[1..][i] != s[1..][j]
        {
          assert s[1..][i] == s[i + 1] && s[1..][j] == s[j + 1];
        }
      }
      WithoutKeepsDistinct(s[1..], e);
      if s[0] != e {
        var t := Without(s[1..], e);
        assert s[0] !in t by {
          forall x | x in t
            ensures x != s[0]
          {
            var j :| 0 <= j < |s[1..]| && s[1..][j] == x;
            assert s[j + 1] == x;
          }
        }
      }
    }
  }

  /**
   * A re-arm leaves its event armed exactly once, whether or not it was
   * armed before, and keeps every other armed event; armed sets without
   * duplicates stay so.
   */
  lemma {:induction false} RearmArmsOnce(s: seq<TimerEvent>, e: TimerEvent)
    ensures forall j :: 0 <= j < |Rearm(s, e)| ==> (Rearm(s, e)[j] == e <==> j == |Rearm(s, e)| - 1)
    ensures forall j :: 0 <= j < |Rearm(s, e)| ==> Rearm(s, e)[j] in s + [e]
    ensures forall k :: 0 <= k < |s| ==> s[k] in Rearm(s, e)
    ensures NoDuplicates(s) ==> NoDuplicates(Rearm(s, e))
  {
    var w := Without(s, e);
    forall j | 0 <= j < |w|
      ensures Rearm(s, e)[j] != e
    {
      assert Rearm(s, e)[j] == w[j];
    }
    if NoDuplicates(s) {
      WithoutKeepsDistinct(s, e);
    }
  }

  /** The relay's evtimer (`ccnl_evtimer`), by the events it holds armed. */
  class EvTimer {
    var events: seq<TimerEvent>

    ghost predicate Valid()
      reads this
    {
      NoDuplicates(events)
    }

    constructor ()
      ensures Valid() && events == []
    {
      events := [];
    }

    /** evtimer_del: the event is no longer armed; deleting an unarmed event does nothing. */
    method Del(e: TimerEvent)
      requires Valid()
      modifies this
      ensures Valid()
      ensures events == Without(old(events), e)
    {
      WithoutKeepsDistinct(events, e);
      events := Without(events, e);
    }

    /** evtimer_add_msg: the event is armed; the caller must not have it armed already. */
    method AddMsg(e: TimerEvent)
      requires Valid() && e !in events
      modifies this
      ensures Valid()
      ensures events == old(events) + [e]
    {
      events := events + [e];
    }
  }

  /**
   * The common body of the re-arm helpers: delete the event, set its
   * message type, pointer and offset, add it again.
   */
  method RearmEvent(et: EvTimer, e: TimerEvent, msgType: int, ptr: MsgPtr, offset: int)
    requires et.Valid()
    modifies et, e
    ensures et.Valid()
    ensures et.events == Rearm(old(et.events), e)
    ensures e.msgType == msgType && e.ptr == ptr && e.offset == offset
  {
    et.Del(e);
    e.msgType := msgType;
    e.ptr := ptr;
    e.offset := offset;
    et.AddMsg(e);
  }

  /** ccnl_evtimer_reset_interest_retrans: INT_RETRANS for `i` after the retransmission interval. */
  method ResetInterestRetrans(et: EvTimer, i: Interest)
    requires et.Valid()
    modifies et, i.evtmsgRetrans
    ensures et.Valid()
    ensures et.events == Rearm(old(et.events), i.evtmsgRetrans)
    ensures i.evtmsgRetrans.msgType == CCNL_MSG_INT_RETRANS && i.evtmsgRetrans.ptr == ToInterest(i)
    ensures i.evtmsgRetrans.offset == CCNL_INTEREST_RETRANS_TIMEOUT
  {
    RearmEvent(et, i.evtmsgRetrans, CCNL_MSG_INT_RETRANS, ToInterest(i), CCNL_INTEREST_RETRANS_TIMEOUT);
  }

  /** ccnl_evtimer_reset_interest_timeout: INT_TIMEOUT for `i` after its lifetime (seconds, as ms). */
  method ResetInterestTimeout(et: EvTimer, i: Interest)
    requires et.Valid()
    modifies et, i.evtmsgTimeout
    ensures et.Valid()
    ensures et.events == Rearm(old(et.events), i.evtmsgTimeout)
    ensures i.evtmsgTimeout.msgType == CCNL_MSG_INT_TIMEOUT && i.evtmsgTimeout.ptr == ToInterest(i)
    ensures i.evtmsgTimeout.offset == i.lifetime * 1000
  {
    RearmEvent(et, i.evtmsgTimeout, CCNL_MSG_INT_TIMEOUT, ToInterest(i), i.lifetime * 1000);
  }

  /** ccnl_evtimer_reset_face_timeout: FACE_TIMEOUT for `f` after CCNL_FACE_TIMEOUT seconds. */
  method ResetFaceTimeout(et: EvTimer, f: Face)
    requires et.Valid()
    modifies et, f.evtmsgTimeout
    ensures et.Valid()
    ensures et.events == Rearm(old(et.events), f.evtmsgTimeout)
    ensures f.evtmsgTimeout.msgType == CCNL_MSG_FACE_TIMEOUT && f.evtmsgTimeout.ptr == ToFace(f)
    ensures f.evtmsgTimeout.offset == CCNL_FACE_TIMEOUT * 1000
  {
    RearmEvent(et, f.evtmsgTimeout, CCNL_MSG_FACE_TIMEOUT, ToFace(f), CCNL_FACE_TIMEOUT * 1000);
  }

  /**
   * ccnl_evtimer_set_cs_timeout: CS_DEL carrying the content's name after
   * CCNL_CONTENT_TIMEOUT seconds. The content's packet is dereferenced.
   */
  method SetCsTimeout(et: EvTimer, c: Content)
    requires et.Valid() && c.pkt.Some?
    modifies et, c.cstimeout
    ensures et.Valid()
    ensures et.events == Rearm(old(et.events), c.cstimeout)
    ensures c.cstimeout.msgType == CCNL_MSG_CS_DEL && c.cstimeout.ptr == ToPrefix(c.pkt.value.pfx)
    ensures c.cstimeout.offset == CCNL_CONTENT_TIMEOUT * 1000
  {
    RearmEvent(et, c.cstimeout, CCNL_MSG_CS_DEL, ToPrefix(c.pkt.value.pfx), CCNL_CONTENT_TIMEOUT * 1000);
  }

  // ---------------------------------------------------------------------
  // Purging a removed interest

  /** The queue slot after the purge: zero if it pointed at `i`, untouched otherwise. */
  function Purged(m: Msg, i: Interest): Msg
  {
    if m.ptr == ToInterest(i) then ZERO_MSG else m
  }

  /**
   * ccnl_riot_interest_remove(et, i): both of the interest's timers are
   * deleted and every queue slot `0..mask` that points at `i` is zeroed;
   * the other slots, and any beyond `mask`, are untouched.
   */
  method InterestRemove(et: EvTimer, i: Interest, queue: array<Msg>, mask: nat)
    requires et.Valid() && mask < queue.Length
    modifies et, queue
    ensures et.Valid()
    ensures et.events == Without(Without(old(et.events), i.evtmsgRetrans), i.evtmsgTimeout)
    ensures forall j :: 0 <= j <= mask ==> queue[j].ptr != ToInterest(i)
    ensures forall j :: 0 <= j <= mask && old(queue[j]).ptr == ToInterest(i) ==> queue[j] == ZERO_MSG
    ensures forall j :: 0 <= j <= mask && old(queue[j]).ptr != ToInterest(i) ==> queue[j] == old(queue[j])
    ensures forall j :: mask < j < queue.Length ==> queue[j] == old(queue[j])
  {
    et.Del(i.evtmsgRetrans);
    et.Del(i.evtmsgTimeout);
    ghost var armed := et.events;
    var j := 0;
    while j <= mask
      invariant 0 <= j <= mask + 1
      invariant et.events == armed && et.Valid()
      invariant forall k :: 0 <= k < j ==> queue[k] == Purged(old(queue[k]), i)
      invariant forall k :: j <= k < queue.Length ==> queue[k] == old(queue[k])
      decreases mask + 1 - j
    {
      if queue[j].ptr == ToInterest(i) {
        queue[j] := ZERO_MSG;
      }
      j := j + 1;
    }
  }

  // ---------------------------------------------------------------------
  // Event counters

  /** The global uint32_t statistics counters. */
  datatype Counter =
    | FwdInterest | RetransSendInterest | SendDropInterest | RecvInterest | DupDrop
    | CsSendData | FwdData | RecvData | RecvDropData | NetdevEvtTxNoack | Discard802154
    | RecvNam | SendNam | RecvPam | SendPam | RecvSol | SendSol

  /** The events the print_* helpers record. */
  datatype Event =
    | PrintFwdInterest | PrintRetransSendInterest | PrintSendDropInterest | PrintRecvInterest
    | PrintDropdupInterest | PrintCsSendData | PrintFwdData | PrintRecvDropData | PrintRecvData
    | PrintSendPam | PrintRecvPam | PrintSendSol | PrintRecvSol | PrintSendNam | PrintRecvNam

  /** The counter each helper bumps. */
  function CounterOf(e: Event): Counter
  {
    match e
    case PrintFwdInterest => FwdInterest
    case PrintRetransSendInterest => RetransSendInterest
    case PrintSendDropInterest => SendDropInterest
    case PrintRecvInterest => RecvInterest
    case PrintDropdupInterest => DupDrop
    case PrintCsSendData => CsSendData
    case PrintFwdData => FwdData
    case PrintRecvDropData => RecvDropData
    case PrintRecvData => RecvData
    case PrintSendPam => SendPam
    case PrintRecvPam => RecvPam
    case PrintSendSol => SendSol
    case PrintRecvSol => RecvSol
    case PrintSendNam => SendNam
    case PrintRecvNam => RecvNam
  }

  /** Different helpers bump different counters; the two device counters have no helper. */
  lemma CounterOfInjective(a: Event, b: Event)
    ensures a != b ==> CounterOf(a) != CounterOf(b)
    ensures CounterOf(a) != NetdevEvtTxNoack && CounterOf(a) != Discard802154
  {
  }

  /** A 32-bit unsigned increment, wrapping at 2^32. */
  function Inc32(v: uint32): (r: uint32)
    ensures v < 0xFFFF_FFFF ==> r == v + 1
    ensures v == 0xFFFF_FFFF ==> r == 0
  {
    (v + 1) % 0x1_0000_0000
  }

  /** The counters after one bump of `k`. */
  function Bump(counts: map<Counter, uint32>, k: Counter): (r: map<Counter, uint32>)
    requires k in counts
    ensures r.Keys == counts.Keys
    ensures r[k] == Inc32(counts[k])
    ensures forall j :: j in counts && j != k ==> r[j] == counts[j]
  {
    counts[k := Inc32(counts[k])]
  }

  /** Every counter the header declares. */
  const ALL_COUNTERS: set<Counter> :=
    {FwdInterest, RetransSendInterest, SendDropInterest, RecvInterest, DupDrop, CsSendData, FwdData,
     RecvData, RecvDropData, NetdevEvtTxNoack, Discard802154, RecvNam, SendNam, RecvPam, SendPam,
     RecvSol, SendSol}

  /** The statistics counters. */
  class Stats {
    var counts: map<Counter, uint32>

    ghost predicate Valid()
      reads this
    {
      counts.Keys == ALL_COUNTERS
    }

    /** Counters are zero at start-up. */
    constructor ()
      ensures Valid() && forall k :: k in counts ==> counts[k] == 0
    {
      counts := map k | k in ALL_COUNTERS :: 0;
    }

  /** A print_* helper: exactly its own counter goes up by one. */
    method Print(e: Event)
      requires Valid()
      modifies this
      ensures Valid()
      ensures counts == Bump(old(counts), CounterOf(e))
    {
      counts := counts[CounterOf(e) := Inc32(counts[CounterOf(e)])];
    }
  }
}

=== FILE: ccnl_types.dfy ===
/*
 * Entities shared by the CCN-Lite relay model: names (prefixes), packets,
 * content-store entries, PIT entries, faces, link-layer interfaces, the
 * COMPAS DODAG and the relay itself, plus the evtimer events and the
 * event-loop messages that point at them.
 */
module CcnlTypes {

  type byte = x: int | 0 <= x < 256

  /** Unsigned 32-bit value (uint32_t). */
  type uint32 = x: int | 0 <= x < 0x1_0000_0000

  datatype Option<T> = None | Some(value: T)

  // ---------------------------------------------------------------------
  // Constants whose values live in headers outside this model
  // (ccnl-defs.h, compas/dodag.h, RIOT's errno.h and netreg.h). They are
  // declared without a value, so every proof holds whatever value they have.

  /** CCNL_CONTENT_FLAGS_NOT_STALE */
  const CONTENT_FLAGS_NOT_STALE: bv32
  /** CCNL_COMPAS_CONTENT_REQUESTED */
  const COMPAS_CONTENT_REQUESTED: bv32
  /** COMPAS_DODAG_FLAGS_FLOATING */
  const COMPAS_DODAG_FLAGS_FLOATING: bv8
  /** COMPAS_DODAG_UNDEF */
  const COMPAS_DODAG_UNDEF: int
  /** COMPAS_DODAG_ROOT_RANK */
  const COMPAS_DODAG_ROOT_RANK: int
  /** COMPAS_NAME_LEN: capacity of the DODAG prefix buffer */
  const COMPAS_NAME_LEN: nat
  /** CCNL_ENC_COMPAS: the encoding byte following a 0x80 switch marker */
  const CCNL_ENC_COMPAS: byte
  /** CCNL_MAX_INTERFACES */
  const CCNL_MAX_INTERFACES: nat
  /** CCNL_MAX_INTEREST_RETRANSMIT */
  const CCNL_MAX_INTEREST_RETRANSMIT: nat
  /** CCNL_FACE_TIMEOUT, in seconds */
  const CCNL_FACE_TIMEOUT: nat
  /** CCNL_CONTENT_TIMEOUT, in seconds */
  const CCNL_CONTENT_TIMEOUT: nat
  /** ETIMEDOUT and ECANCELED (positive errno values) */
  const ETIMEDOUT: nat
  const ECANCELED: nat

  /** AF_PACKET, the link-layer address family */
  const AF_PACKET: int

  /** NDN_DEFAULT_INTEREST_LIFETIME, in milliseconds */
  const NDN_DEFAULT_INTEREST_LIFETIME: nat := 4000
  /** NDN_DEFAULT_MTU */
  const NDN_DEFAULT_MTU: int := 4096
  /** Microseconds per second */
  const US_PER_SEC: nat := 1000000

  // ---------------------------------------------------------------------
  // Names and packets

  /**
   * An NFN request attached to a name (struct nfn_request_s). Its fields
   * are replaced in place by the request operations, so it is an object.
   * `comp`'s length is the struct's `complen`; `arg` is None for NULL.
   */
  class NfnRequest {
    var comp: seq<char>
    var rtype: nat
    var arg: Option<string>

    constructor (comp: seq<char>, rtype: nat, arg: Option<string>)
      ensures this.comp == comp && this.rtype == rtype && this.arg == arg
    {
      this.comp := comp;
      this.rtype := rtype;
      this.arg := arg;
    }
  }

  /**
   * A name (struct ccnl_prefix_s): its components, the encoded name bytes
   * kept for ICN LoWPAN (`nameptr`: a type byte, a length byte, then the
   * name), the optional chunk number and the optional NFN request.
   */
  datatype Prefix = Prefix(comps: seq<seq<byte>>, nameptr: seq<byte>,
                           chunknum: Option<int>, request: NfnRequest?)

  /** A parsed packet (struct ccnl_pkt_s): its name and its wire bytes. */
  datatype Packet = Packet(pfx: Prefix, buf: seq<byte>)

  /** The QoS traffic class of a content (only `reliable` is consulted). */
  datatype TrafficClass = TrafficClass(reliable: bool)

  /**
   * Number of leading components two names share: what `ccnl_prefix_cmp`
   * returns in CMP_LONGEST mode.
   */
  function CommonPrefixLen(a: seq<seq<byte>>, b: seq<seq<byte>>): (n: nat)
    ensures n <= |a| && n <= |b|
    ensures a[..n] == b[..n]
    ensures n < |a| && n < |b| ==> a[n] != b[n]
    decreases |a|
  {
    if |a| == 0 || |b| == 0 || a[0] != b[0] then 0
    else 1 + CommonPrefixLen(a[1..], b[1..])
  }

  /**
   * ccnl_prefix_cmp in CMP_LONGEST mode equals the first name's length
   * exactly when the second extends it.
   */
  lemma {:induction false} LongestMatchIsExtension(a: seq<seq<byte>>, b: seq<seq<byte>>)
    ensures CommonPrefixLen(a, b) == |a| <==> (|a| <= |b| && b[..|a|] == a)
    decreases |a|
  {
    if |a| > 0 && |b| > 0 && a[0] == b[0] {
      LongestMatchIsExtension(a[1..], b[1..]);
      if |a| <= |b| && b[..|a|] == a {
        assert b[1..][..|a| - 1] == a[1..];
      }
      if |a| - 1 <= |b| - 1 && b[1..][..|a| - 1] == a[1..] {
        assert b[..|a|] == [b[0]] + b[1..][..|a| - 1];
      }
    }
  }

  /** Counting common leading components does not depend on the order of the names. */
  lemma {:induction false} CommonPrefixLenSymmetric(a: seq<seq<byte>>, b: seq<seq<byte>>)
    ensures CommonPrefixLen(a, b) == CommonPrefixLen(b, a)
    decreases |a|
  {
    if |a| > 0 && |b| > 0 && a[0] == b[0] {
      CommonPrefixLenSymmetric(a[1..], b[1..]);
    }
  }

  /** `p`'s components are a prefix of `q`'s. */
  predicate Extends(q: Prefix, p: Prefix)
  {
    |p.comps| <= |q.comps| && q.comps[..|p.comps|] == p.comps
  }

  // ---------------------------------------------------------------------
  // Timer events and event-loop messages

  /** What a message's `content.ptr` points at. */
  datatype MsgPtr = NoPtr | ToInterest(i: Interest) | ToFace(f: Face) | ToPrefix(p: Prefix)

  /** A message of the event loop's queue (msg_t); all zero is (0, 0, NoPtr). */
  datatype Msg = Msg(senderPid: int, msgType: int, ptr: MsgPtr)

  const ZERO_MSG: Msg := Msg(0, 0, NoPtr)

  /**
   * An evtimer message event (evtimer_msg_event_t) embedded in an
   * interest, a face or a content: its message type, pointer and offset.
   */
  class TimerEvent {
    var msgType: int
    var ptr: MsgPtr
    var offset: int

    /** Zero-initialised, as the enclosing struct's calloc leaves it. */
    constructor ()
      ensures msgType == 0 && ptr == NoPtr && offset == 0
    {
      msgType := 0;
      ptr := NoPtr;
      offset := 0;
    }
  }

  /** A pending-interest record; only the outgoing hop id is modelled. */
  datatype PendInt = PendInt(hopIdOut: int)

  /**
   * A PIT entry (struct ccnl_interest_s). The packet, its pending records
   * and its lifetime are fixed here; `retries` changes. The three timer
   * events are embedded structs, hence distinct objects.
   */
  class Interest {
    const pkt: Packet
    const pending: seq<PendInt>
    const lifetime: nat
    var retries: nat
    const evtmsgRetrans: TimerEvent
    const evtmsgTimeout: TimerEvent
    const retransTimer: TimerEvent

    ghost predicate Valid()
    {
      evtmsgRetrans != evtmsgTimeout && evtmsgRetrans != retransTimer &&
      evtmsgTimeout != retransTimer
    }

    constructor (pkt: Packet, pending: seq<PendInt>, lifetime: nat)
      ensures Valid()
      ensures this.pkt == pkt && this.pending == pending && this.lifetime == lifetime
      ensures retries == 0
      ensures fresh(evtmsgRetrans) && fresh(evtmsgTimeout) && fresh(retransTimer)
    {
      this.pkt := pkt;
      this.pending := pending;
      this.lifetime := lifetime;
      retries := 0;
      evtmsgRetrans := new TimerEvent();
      evtmsgTimeout := new TimerEvent();
      retransTimer := new TimerEvent();
    }
  }

  /** A face (struct ccnl_face_s); only its timeout event is modelled. */
  class Face {
    const faceid: int
    const evtmsgTimeout: TimerEvent

    constructor (faceid: int)
      ensures this.faceid == faceid && fresh(evtmsgTimeout)
    {
      this.faceid := faceid;
      evtmsgTimeout := new TimerEvent();
    }
  }

  /**
   * A content-store entry (struct ccnl_content_s): the packet it owns
   * (None for NULL), its flags, last-use time, traffic class, COMPAS
   * retry budget and its embedded content-timeout event.
   */
  datatype Content = Content(pkt: Option<Packet>, flags: bv32, lastUsed: int,
                             tclass: TrafficClass, retries: nat,
                             cstimeout: TimerEvent)

  /** Every content has a packet (the loops over the store dereference `c->pkt->pfx`). */
  predicate AllHavePackets(cs: seq<Content>)
  {
    forall k :: 0 <= k < |cs| ==> cs[k].pkt.Some?
  }

  // ---------------------------------------------------------------------
  // Interfaces, COMPAS DODAG and the relay

  /** A link-layer interface (struct ccnl_if_s); `|hwaddr|` is `addr_len`. */
  datatype Iface = Iface(ifPid: int, mtu: int, hwaddr: seq<byte>, fwdalli: int)

  /** The COMPAS DODAG state: rank, flag bits, parent address and prefix. */
  datatype Dodag = Dodag(rank: int, flags: bv8, parentAddr: seq<byte>, prefix: string)

  /**
   * The relay's static netreg entry (`_ccnl_ne`): its demultiplexing
   * context and target thread, and the nettypes it has been registered
   * for with gnrc_netreg_register, in order.
   */
  class NetregEntry {
    var demuxCtx: int
    var pid: int
    var registrations: seq<int>

    /** Zero-initialised, as a static struct is. */
    constructor ()
      ensures demuxCtx == 0 && pid == 0 && registrations == []
    {
      demuxCtx := 0;
      pid := 0;
      registrations := [];
    }
  }

  /** The relay (struct ccnl_relay_s), restricted to the fields modelled. */
  class Relay {
    var contents: seq<Content>
    var contentcnt: int
    var pit: seq<Interest>
    var ifs: seq<Iface>
    var dodag: Dodag
    var compasDodagParentTimeout: int
    var compasNamTimerRunning: int

    /** `contentcnt` counts the store and `ifcount` stays within the table. */
    ghost predicate Valid()
      reads this
    {
      contentcnt == |contents| && |ifs| <= CCNL_MAX_INTERFACES
    }

    constructor (dodag: Dodag)
      ensures Valid()
      ensures contents == [] && pit == [] && ifs == [] && this.dodag == dodag
      ensures compasDodagParentTimeout == 0 && compasNamTimerRunning == 0
    {
      contents := [];
      contentcnt := 0;
      pit := [];
      ifs := [];
      this.dodag := dodag;
      compasDodagParentTimeout := 0;
      compasNamTimerRunning := 0;
    }
  }
}

=== FILE: compas.dfy ===
/*
 * The COMPAS adaptation layer: the parent-timeout transition of the
 * DODAG state, and the sending of PAM (prefix advertisement) and NAM
 * (name advertisement) frames. Both frames carry the switch marker 0x80
 * and the COMPAS encoding before the COMPAS message; a PAM is
 * broadcast, a NAM goes to the DODAG parent, and both leave through the
 * first interface with a thread behind it. Packet-buffer allocation,
 * header building and sending are gnrc calls, given here as their
 * results; the COMPAS encoders are functions.
 */
module Compas {
  import opened CcnlTypes

  /** What is handed to gnrc_netapi_send: broadcast flag, link destination, interface, bytes. */
  datatype Frame = Frame(broadcast: bool, dst: seq<byte>, ifPid: int, payload: seq<byte>)

  /** A COMPAS payload: the switch marker, the COMPAS encoding, then the message. */
  function CompasPayload(body: seq<byte>): seq<byte>
  {
    [0x80, CCNL_ENC_COMPAS] + body
  }

  // ---------------------------------------------------------------------
  // Parent timeout

  /** The DODAG after a parent timeout: the FLOATING bit is set. */
  function DodagAfterTimeout(d: Dodag): Dodag
  {
    d.(flags := d.flags | COMPAS_DODAG_FLAGS_FLOATING)
  }

  /**
   * A parent timeout sets FLOATING and keeps every other flag bit, the
   * rank, the parent and the prefix; a second timeout changes nothing more.
   */
  lemma ParentTimeoutEffect(d: Dodag)
    ensures DodagAfterTimeout(d).flags & COMPAS_DODAG_FLAGS_FLOATING == COMPAS_DODAG_FLAGS_FLOATING
    ensures DodagAfterTimeout(d).flags & !COMPAS_DODAG_FLAGS_FLOATING == d.flags & !COMPAS_DODAG_FLAGS_FLOATING
    ensures DodagAfterTimeout(d).rank == d.rank && DodagAfterTimeout(d).parentAddr == d.parentAddr
    ensures DodagAfterTimeout(d).prefix == d.prefix
    ensures DodagAfterTimeout(DodagAfterTimeout(d)) == DodagAfterTimeout(d)
  {
  }

  /**
   * compas_dodag_parent_timeout: the relay's parent-timeout flag becomes
   * 1 and the DODAG is floating; nothing else in the relay changes (no
   * timer is touched, no content is modified).
   */
  method DodagParentTimeout(relay: Relay)
    modifies relay
    ensures relay.compasDodagParentTimeout == 1
    ensures relay.dodag == DodagAfterTimeout(old(relay.dodag))
    ensures relay.contents == old(relay.contents) && relay.contentcnt == old(relay.contentcnt)
    ensures relay.pit == old(relay.pit) && relay.ifs == old(relay.ifs)
    ensures relay.compasNamTimerRunning == old(relay.compasNamTimerRunning)
  {
    relay.compasDodagParentTimeout := 1;
    relay.dodag := relay.dodag.(flags := relay.dodag.flags | COMPAS_DODAG_FLAGS_FLOATING);
  }

  // ---------------------------------------------------------------------
  // Egress interface

  /** Some interface has a thread (`if_pid != 0`). */
  predicate HasLiveIface(ifs: seq<Iface>)
  {
    exists k :: 0 <= k < |ifs| && ifs[k].ifPid != 0
  }

  /** The first interface at or after `from` with a thread. */
  function FirstLiveFrom(ifs: seq<Iface>, from: nat): (k: nat)
    requires exists j :: from <= j < |ifs| && ifs[j].ifPid != 0
    ensures from <= k < |ifs| && ifs[k].ifPid != 0
    ensures forall j :: from <= j < k ==> ifs[j].ifPid == 0
    decreases |ifs| - from
  {
    if ifs[from].ifPid != 0 then from else FirstLiveFrom(ifs, from + 1)
  }

  /** The egress interface of COMPAS frames: the first with a thread. */
  function FirstLive(ifs: seq<Iface>): (k: nat)
    requires HasLiveIface(ifs)
    ensures k < |ifs| && ifs[k].ifPid != 0
    ensures forall j :: 0 <= j < k ==> ifs[j].ifPid == 0
  {
    FirstLiveFrom(ifs, 0)
  }

  /**
   * The interface scan of the send functions. The code dereferences the
   * interface it finds, so one must exist.
   */
  method EgressIface(ifs: seq<Iface>) returns (k: nat)
    requires HasLiveIface(ifs)
    ensures k == FirstLive(ifs)
  {
    k := 0;
    while ifs[k].ifPid == 0
      invariant k <= FirstLive(ifs)
      decreases FirstLive(ifs) - k
      invariant forall j :: 0 <= j < k ==> ifs[j].ifPid == 0
    {
      k := k + 1;
    }
  }

  // ---------------------------------------------------------------------
  // PAM and NAM

  /**
   * ccnl_compas_send_pam. `allocOk`/`hdrOk` are whether the packet buffer
   * and the netif header could be allocated; `pamBody` is compas_pam_create.
   * The frame handed to the interface, if any, is returned; a failing send
   * only releases the buffer.
   */
  method SendPam(relay: Relay, allocOk: bool, hdrOk: bool, pamBody: Dodag -> seq<byte>)
    returns (attempt: Option<Frame>)
    requires allocOk && hdrOk ==> HasLiveIface(relay.ifs)
    ensures attempt.Some? <==> allocOk && hdrOk
    ensures attempt.Some? ==>
      attempt.value == Frame(true, [], relay.ifs[FirstLive(relay.ifs)].ifPid,
                             CompasPayload(pamBody(relay.dodag)))
  {
    if !allocOk {
      return None;
    }
    var data := [0x80, CCNL_ENC_COMPAS] + pamBody(relay.dodag);
    if !hdrOk {
      return None;
    }
    var k := EgressIface(relay.ifs);
    attempt := Some(Frame(true, [], relay.ifs[k].ifPid, data));
  }

  /**
   * compas_send_nam(ccnl, name). `addName` is compas_nam_tlv_add_name
   * applied to a fresh NAM: the message bytes, empty when the name could
   * not be added. `sendRes` is gnrc_netapi_send's result. The result is
   * true exactly when a frame went to the parent and was accepted.
   */
  method SendNam(relay: Relay, name: string, allocOk: bool, hdrOk: bool, sendRes: int,
                 addName: string -> seq<byte>)
    returns (ok: bool, attempt: Option<Frame>)
    requires relay.dodag.rank != COMPAS_DODAG_UNDEF && allocOk && |addName(name)| > 0 && hdrOk ==>
      HasLiveIface(relay.ifs)
    ensures relay.dodag.rank == COMPAS_DODAG_UNDEF ==> !ok && attempt.None?
    ensures attempt.Some? <==>
      relay.dodag.rank != COMPAS_DODAG_UNDEF && allocOk && |addName(name)| > 0 && hdrOk
    ensures attempt.Some? ==>
      attempt.value == Frame(false, relay.dodag.parentAddr, relay.ifs[FirstLive(relay.ifs)].ifPid,
                             CompasPayload(addName(name)))
    ensures ok <==> attempt.Some? && sendRes >= 1
  {
    if relay.dodag.rank == COMPAS_DODAG_UNDEF {
      return false, None;
    }
    if !allocOk {
      return false, None;
    }
    var nam := addName(name);
    if |nam| == 0 {
      return false, None;
    }
    var data := [0x80, CCNL_ENC_COMPAS] + nam;
    if !hdrOk {
      return false, None;
    }
    var k := EgressIface(relay.ifs);
    attempt := Some(Frame(false, relay.dodag.parentAddr, relay.ifs[k].ifPid, data));
    ok := sendRes >= 1;
  }
}

=== FILE: compas_riot.dfy ===
/*
 * COMPAS on the RIOT relay: the NAM retry pass of compas_send_nam,
 * which advertises one cached content under the DODAG prefix per call,
 * and the event-loop ticks that drive PAM and NAM sending.
 */
module CompasRiot {
  import opened CcnlTypes
  import opened CStdlib
  import Compas

  // ---------------------------------------------------------------------
  // The NAM retry pass

  /**
   * A content the pass may advertise: its name is longer than the DODAG
   * prefix `p`, extends it, and the content is not flagged REQUESTED.
   */
  predicate Eligible(c: Content, p: Prefix)
  {
    c.pkt.Some? && |p.comps| < |c.pkt.value.pfx.comps| && Extends(c.pkt.value.pfx, p) &&
    c.flags & COMPAS_CONTENT_REQUESTED == 0
  }

  /** The first eligible content at or after `from`. */
  function FirstEligibleFrom(cs: seq<Content>, p: Prefix, from: nat): (r: Option<nat>)
    requires from <= |cs|
    ensures r.Some? ==> from <= r.value < |cs| && Eligible(cs[r.value], p)
    ensures r.Some? ==> forall j :: from <= j < r.value ==> !Eligible(cs[j], p)
    ensures r.None? ==> forall j :: from <= j < |cs| ==> !Eligible(cs[j], p)
    decreases |cs| - from
  {
    if from == |cs| then None
    else if Eligible(cs[from], p) then Some(from)
    else FirstEligibleFrom(cs, p, from + 1)
  }

  /** The content the pass stops at: the first eligible one in list order. */
  function NamCandidate(cs: seq<Content>, p: Prefix): (r: Option<nat>)
    ensures r.Some? ==> r.value < |cs| && Eligible(cs[r.value], p)
    ensures r.Some? ==> forall j :: 0 <= j < r.value ==> !Eligible(cs[j], p)
    ensures r.None? ==> forall j :: 0 <= j < |cs| ==> !Eligible(cs[j], p)
  {
    FirstEligibleFrom(cs, p, 0)
  }

  /** How a pass ends: nothing eligible, a name advertised, or retries exhausted. */
  datatype NamOutcome = NoCandidate | Advertise(k: nat) | Exhausted(k: nat)

  function NamOutcomeOf(cs: seq<Content>, p: Prefix): NamOutcome
  {
    match NamCandidate(cs, p)
    case None => NoCandidate
    case Some(k) => if cs[k].retries > 0 then Advertise(k) else Exhausted(k)
  }

  /** The content list after a pass: only an advertised content loses one retry. */
  function AfterNamPass(cs: seq<Content>, p: Prefix): seq<Content>
  {
    match NamOutcomeOf(cs, p)
    case Advertise(k) => cs[k := cs[k].(retries := cs[k].retries - 1)]
    case _ => cs
  }

  /**
   * A pass touches at most one content, the first eligible one: when it
   * has retries left they drop by exactly one, otherwise nothing changes.
   * Contents that are REQUESTED, not longer than the prefix or outside
   * it are never modified.
   */
  lemma NamPassFrame(cs: seq<Content>, p: Prefix)
    ensures |AfterNamPass(cs, p)| == |cs|
    ensures forall j :: 0 <= j < |cs| && NamOutcomeOf(cs, p) != Advertise(j) ==>
      AfterNamPass(cs, p)[j] == cs[j]
    ensures forall j :: 0 <= j < |cs| && !Eligible(cs[j], p) ==> AfterNamPass(cs, p)[j] == cs[j]
    ensures NamOutcomeOf(cs, p).Advertise? ==>
      var k := NamOutcomeOf(cs, p).k;
      k < |cs| && cs[k].retries > 0 &&
      AfterNamPass(cs, p)[k] == cs[k].(retries := cs[k].retries - 1)
    ensures NamOutcomeOf(cs, p).Exhausted? ==>
      AfterNamPass(cs, p) == cs && cs[NamOutcomeOf(cs, p).k].retries == 0
  {
  }

  /** The prefix the pass works under: the DODAG prefix as a C string, parsed as an NDN URI. */
  function PassPrefix(d: Dodag, uriToPrefix: string -> Prefix): Prefix
  {
    uriToPrefix(CString(d.prefix))
  }

  /**
   * The NAM message bytes compas_send_nam ends up with: the given name,
   * or for NULL the path of the advertised content; empty when there is
   * none or the retries are exhausted (`nam->len = 0`).
   */
  function NamBody(d: Dodag, cs: seq<Content>, name: Option<string>, addName: string -> seq<byte>,
                   uriToPrefix: string -> Prefix, toPath: Prefix -> string): seq<byte>
  {
    if name.Some? then addName(name.value)
    else match NamOutcomeOf(cs, PassPrefix(d, uriToPrefix))
      case Advertise(k) => addName(toPath(cs[k].pkt.value.pfx))
      case _ => []
  }

  /** The pass runs into a content with no retries left. */
  predicate Exhausting(d: Dodag, cs: seq<Content>, name: Option<string>, uriToPrefix: string -> Prefix)
  {
    name.None? && NamOutcomeOf(cs, PassPrefix(d, uriToPrefix)).Exhausted?
  }

  /** Capacity of compas_send_nam's local copy of the DODAG prefix. */
  const NAM_PREFIX_BUF: nat := COMPAS_NAME_LEN + 1

  /** A NUL-terminated copy of `s` fits a buffer of `n` characters. */
  predicate CopyFits(n: nat, s: seq<char>)
  {
    |s| + 1 <= n
  }

  /** memcpy of `s` into `buf` followed by a terminating NUL. */
  method NulTerminatedCopy(buf: array<char>, s: seq<char>)
    requires CopyFits(buf.Length, s)
    modifies buf
    ensures buf[..|s|] == s && buf[|s|] == '\0'
    ensures CString(buf[..]) == CString(s)
  {
    var i := 0;
    while i < |s|
      invariant 0 <= i <= |s|
      invariant buf[..i] == s[..i]
    {
      buf[i] := s[i];
      i := i + 1;
    }
    buf[|s|] := '\0';
    assert buf[..|s|] == s[..|s|];
    assert buf[..][..|s|] == buf[..|s|];
    CStringOfTerminated(s, buf[..]);
  }

  /**
   * The content loop of compas_send_nam for a NULL name under prefix
   * `p`: it stops at the first eligible content; with retries left they
   * drop by one and its path is added to the NAM, otherwise the NAM stays
   * empty and the parent timeout fires. The NAM bytes are returned.
   */
  method NamPass(relay: Relay, p: Prefix, addName: string -> seq<byte>, toPath: Prefix -> string)
    returns (nam: seq<byte>)
    requires AllHavePackets(relay.contents)
    modifies relay
    ensures relay.contents == AfterNamPass(old(relay.contents), p)
    ensures nam == match NamOutcomeOf(old(relay.contents), p)
      case Advertise(k) => addName(toPath(old(relay.contents)[k].pkt.value.pfx))
      case _ => []
    ensures NamOutcomeOf(old(relay.contents), p).Exhausted? ==>
      relay.dodag == Compas.DodagAfterTimeout(old(relay.dodag)) && relay.compasDodagParentTimeout == 1
    ensures !NamOutcomeOf(old(relay.contents), p).Exhausted? ==>
      relay.dodag == old(relay.dodag) && relay.compasDodagParentTimeout == old(relay.compasDodagParentTimeout)
    ensures relay.contentcnt == old(relay.contentcnt) && relay.pit == old(relay.pit) && relay.ifs == old(relay.ifs)
    ensures relay.compasNamTimerRunning == old(relay.compasNamTimerRunning)
  {
    var found := FindCandidate(relay.contents, p);
    nam := [];
    if found.Some? {
      var c := relay.contents[found.value];
      if c.retries > 0 {
        relay.contents := relay.contents[found.value := c.(retries := c.retries - 1)];
        nam := addName(toPath(c.pkt.value.pfx));
      } else {
        Compas.DodagParentTimeout(relay);
      }
    }
  }

  /**
   * The scan of compas_send_nam's content loop: skip names not longer
   * than the prefix, compare the rest with ccnl_prefix_cmp in
   * CMP_LONGEST mode, and stop at the first that extends the prefix and
   * is not REQUESTED.
   */
  method FindCandidate(cs: seq<Content>, p: Prefix) returns (found: Option<nat>)
    requires AllHavePackets(cs)
    ensures found == NamCandidate(cs, p)
  {
    var i := 0;
    while i < |cs|
      invariant 0 <= i <= |cs|
      invariant FirstEligibleFrom(cs, p, i) == NamCandidate(cs, p)
    {
      var c := cs[i];
      EligibleByLongestMatch(c, p);
      if |c.pkt.value.pfx.comps| > |p.comps| {
        var rc := CommonPrefixLen(c.pkt.value.pfx.comps, p.comps);
        if rc >= |p.comps| {
          if c.flags & COMPAS_CONTENT_REQUESTED == 0 {
            return Some(i);
          }
        }
      }
      i := i + 1;
    }
    return None;
  }

  /**
   * The loop's test: a longer name whose CMP_LONGEST match with the
   * prefix covers the whole prefix, and no REQUESTED flag.
   */
  lemma EligibleByLongestMatch(c: Content, p: Prefix)
    requires c.pkt.Some?
    ensures Eligible(c, p) <==>
      |c.pkt.value.pfx.comps| > |p.comps| &&
      CommonPrefixLen(c.pkt.value.pfx.comps, p.comps) >= |p.comps| &&
      c.flags & COMPAS_CONTENT_REQUESTED == 0
  {
    CommonPrefixLenSymmetric(c.pkt.value.pfx.comps, p.comps);
    LongestMatchIsExtension(p.comps, c.pkt.value.pfx.comps);
  }

  /**
   * compas_send_nam(ccnl, name, name_len) with `name` None for NULL.
   * `allocOk`/`hdrOk` are the packet-buffer and header allocations,
   * `sendRes` is gnrc_netapi_send's result; `addName` is
   * compas_nam_tlv_add_name on a fresh NAM, `uriToPrefix` is
   * ccnl_URItoPrefix and `toPath` is ccnl_prefix_to_path.
   *
   * Outside a DODAG or without a buffer nothing happens. With a name,
   * that name is advertised. With NULL the retry pass runs over the
   * content list; exhausting a content's retries fires the parent
   * timeout and sends nothing.
   */
  method SendNam(relay: Relay, name: Option<string>, allocOk: bool, hdrOk: bool, sendRes: int,
                 addName: string -> seq<byte>, uriToPrefix: string -> Prefix, toPath: Prefix -> string)
    returns (ok: bool, attempt: Option<Compas.Frame>)
    requires name.None? ==> CopyFits(NAM_PREFIX_BUF, relay.dodag.prefix) && AllHavePackets(relay.contents)
    requires (relay.dodag.rank != COMPAS_DODAG_UNDEF && allocOk && hdrOk &&
      |NamBody(relay.dodag, relay.contents, name, addName, uriToPrefix, toPath)| > 0) ==>
      Compas.HasLiveIface(relay.ifs)
    modifies relay
    ensures relay.contentcnt == old(relay.contentcnt) && relay.pit == old(relay.pit) && relay.ifs == old(relay.ifs)
    ensures relay.compasNamTimerRunning == old(relay.compasNamTimerRunning)
    ensures old(relay.dodag.rank) == COMPAS_DODAG_UNDEF || !allocOk ==>
      relay.contents == old(relay.contents) && relay.dodag == old(relay.dodag) &&
      relay.compasDodagParentTimeout == old(relay.compasDodagParentTimeout)
    ensures old(relay.dodag.rank) != COMPAS_DODAG_UNDEF && allocOk ==>
      relay.contents == (if name.None?
        then AfterNamPass(old(relay.contents), PassPrefix(old(relay.dodag), uriToPrefix))
        else old(relay.contents))
    ensures (old(relay.dodag.rank) != COMPAS_DODAG_UNDEF && allocOk &&
      Exhausting(old(relay.dodag), old(relay.contents), name, uriToPrefix)) ==>
      relay.dodag == Compas.DodagAfterTimeout(old(relay.dodag)) && relay.compasDodagParentTimeout == 1
    ensures !(old(relay.dodag.rank) != COMPAS_DODAG_UNDEF && allocOk &&
              Exhausting(old(relay.dodag), old(relay.contents), name, uriToPrefix)) ==>
      relay.dodag == old(relay.dodag) && relay.compasDodagParentTimeout == old(relay.compasDodagParentTimeout)
    ensures attempt.Some? <==>
      old(relay.dodag.rank) != COMPAS_DODAG_UNDEF && allocOk && hdrOk &&
      |NamBody(old(relay.dodag), old(relay.contents), name, addName, uriToPrefix, toPath)| > 0
    ensures attempt.Some? ==>
      attempt.value == Compas.Frame(false, old(relay.dodag).parentAddr,
        relay.ifs[Compas.FirstLive(relay.ifs)].ifPid,
        Compas.CompasPayload(NamBody(old(relay.dodag), old(relay.contents), name, addName, uriToPrefix, toPath)))
    ensures ok <==> attempt.Some? && sendRes >= 1
  {
    if relay.dodag.rank == COMPAS_DODAG_UNDEF {
      return false, None;
    }
    if !allocOk {
      return false, None;
    }
    var nam: seq<byte> := [];
    if name.Some? {
      nam := addName(name.value);
    } else {
      var dodagPrefix := new char[NAM_PREFIX_BUF];
      NulTerminatedCopy(dodagPrefix, relay.dodag.prefix);
      var prefix := uriToPrefix(CString(dodagPrefix[..]));
      nam := NamPass(relay, prefix, addName, toPath);
    }
    if |nam| == 0 {
      return false, None;
    }
    var data := [0x80, CCNL_ENC_COMPAS] + nam;
    if !hdrOk {
      return false, None;
    }
    var k := Compas.EgressIface(relay.ifs);
    attempt := Some(Compas.Frame(false, relay.dodag.parentAddr, relay.ifs[k].ifPid, data));
    ok := sendRes >= 1;
  }

  // ---------------------------------------------------------------------
  // Event-loop ticks

  /** Capacity of the NAM tick's own copy of the DODAG prefix, as the tick declares it. */
  const TICK_PREFIX_BUF: nat := COMPAS_NAME_LEN

  /**
   * The NAM tick's copy writes its terminator one past its buffer for a
   * DODAG prefix of the full COMPAS_NAME_LEN characters: such a DODAG is
   * outside what NamTickAsWritten admits, yet compas_send_nam's own copy
   * accepts it.
   */
  lemma TickCopyOverflows(d: Dodag)
    requires |d.prefix| == COMPAS_NAME_LEN
    ensures !CopyFits(TICK_PREFIX_BUF, d.prefix)
    ensures CopyFits(NAM_PREFIX_BUF, d.prefix)
  {
  }

  /** With the COMPAS_NAME_LEN + 1 buffer every DODAG prefix fits. */
  lemma CorrectedTickCopyFits(d: Dodag)
    requires |d.prefix| <= COMPAS_NAME_LEN
    ensures CopyFits(NAM_PREFIX_BUF, d.prefix)
  {
  }

  /**
   * What the COMPAS_NAM_MSG case of the event loop leaves behind. The
   * timer-running flag ends up 1 exactly when the timer was re-armed,
   * which is when a NAM was handed over successfully. When the node is
   * not below the root or a parent timeout is pending, nothing else
   * happens. Otherwise compas_send_nam runs with a NULL name. Its retry
   * pass changes the contents as AfterNamPass describes. A content with
   * no retries left fires the parent timeout. A frame is attempted iff
   * the NAM is non-empty and both allocations succeed, and it carries
   * that NAM to the parent.
   */
  twostate predicate NamTickDone(relay: Relay, allocOk: bool, hdrOk: bool, sendRes: int,
                                 addName: string -> seq<byte>, uriToPrefix: string -> Prefix,
                                 toPath: Prefix -> string, workToDo: bool, new attempt: Option<Compas.Frame>)
    reads relay
  {
    var guard := old(relay.dodag.rank) > COMPAS_DODAG_ROOT_RANK && old(relay.compasDodagParentTimeout) == 0;
    var runs := guard && old(relay.dodag.rank) != COMPAS_DODAG_UNDEF && allocOk;
    var body := NamBody(old(relay.dodag), old(relay.contents), None, addName, uriToPrefix, toPath);
    && relay.compasNamTimerRunning == (if workToDo then 1 else 0)
    && relay.contentcnt == old(relay.contentcnt) && relay.pit == old(relay.pit) && relay.ifs == old(relay.ifs)
    && relay.contents == (if runs
         then AfterNamPass(old(relay.contents), PassPrefix(old(relay.dodag), uriToPrefix))
         else old(relay.contents))
    && (if runs && Exhausting(old(relay.dodag), old(relay.contents), None, uriToPrefix)
        then relay.dodag == Compas.DodagAfterTimeout(old(relay.dodag)) && relay.compasDodagParentTimeout == 1
        else relay.dodag == old(relay.dodag) && relay.compasDodagParentTimeout == old(relay.compasDodagParentTimeout))
    && (attempt.Some? <==> runs && hdrOk && |body| > 0)
    && (attempt.Some? ==>
          Compas.HasLiveIface(relay.ifs) &&
          attempt.value == Compas.Frame(false, old(relay.dodag).parentAddr,
            relay.ifs[Compas.FirstLive(relay.ifs)].ifPid, Compas.CompasPayload(body)))
    && (workToDo <==> attempt.Some? && sendRes >= 1)
  }

  /**
   * The COMPAS_NAM_MSG case of the event loop with the tick's prefix copy
   * made into a COMPAS_NAME_LEN + 1 buffer, the size compas_send_nam
   * uses; the copy itself is not read afterwards.
   */
  method NamTick(relay: Relay, allocOk: bool, hdrOk: bool, sendRes: int,
                 addName: string -> seq<byte>, uriToPrefix: string -> Prefix, toPath: Prefix -> string)
    returns (workToDo: bool, attempt: Option<Compas.Frame>)
    requires |relay.dodag.prefix| <= COMPAS_NAME_LEN && AllHavePackets(relay.contents)
    requires (relay.dodag.rank > COMPAS_DODAG_ROOT_RANK && relay.compasDodagParentTimeout == 0 &&
      relay.dodag.rank != COMPAS_DODAG_UNDEF && allocOk && hdrOk &&
      |NamBody(relay.dodag, relay.contents, None, addName, uriToPrefix, toPath)| > 0) ==>
      Compas.HasLiveIface(relay.ifs)
    modifies relay
    ensures NamTickDone(relay, allocOk, hdrOk, sendRes, addName, uriToPrefix, toPath, workToDo, attempt)
  {
    relay.compasNamTimerRunning := 0;
    var dodagPrefix := new char[NAM_PREFIX_BUF];
    NulTerminatedCopy(dodagPrefix, relay.dodag.prefix);
    workToDo := false;
    attempt := None;
    if relay.dodag.rank > COMPAS_DODAG_ROOT_RANK && relay.compasDodagParentTimeout == 0 {
      workToDo, attempt := SendNam(relay, None, allocOk, hdrOk, sendRes, addName, uriToPrefix, toPath);
    }
    if workToDo {
      relay.compasNamTimerRunning := 1;
    }
  }

  /**
   * The same case as written, copying into `char[COMPAS_NAME_LEN]`: the
   * copy is in bounds only for a DODAG prefix shorter than
   * COMPAS_NAME_LEN, which is all this method admits.
   */
  method NamTickAsWritten(relay: Relay, allocOk: bool, hdrOk: bool, sendRes: int,
                          addName: string -> seq<byte>, uriToPrefix: string -> Prefix, toPath: Prefix -> string)
    returns (workToDo: bool, attempt: Option<Compas.Frame>)
    requires CopyFits(TICK_PREFIX_BUF, relay.dodag.prefix) && AllHavePackets(relay.contents)
    requires (relay.dodag.rank > COMPAS_DODAG_ROOT_RANK && relay.compasDodagParentTimeout == 0 &&
      relay.dodag.rank != COMPAS_DODAG_UNDEF && allocOk && hdrOk &&
      |NamBody(relay.dodag, relay.contents, None, addName, uriToPrefix, toPath)| > 0) ==>
      Compas.HasLiveIface(relay.ifs)
    modifies relay
    ensures NamTickDone(relay, allocOk, hdrOk, sendRes, addName, uriToPrefix, toPath, workToDo, attempt)
  {
    relay.compasNamTimerRunning := 0;
    var dodagPrefix := new char[TICK_PREFIX_BUF];
    NulTerminatedCopy(dodagPrefix, relay.dodag.prefix);
    workToDo := false;
    attempt := None;
    if relay.dodag.rank > COMPAS_DODAG_ROOT_RANK && relay.compasDodagParentTimeout == 0 {
      workToDo, attempt := SendNam(relay, None, allocOk, hdrOk, sendRes, addName, uriToPrefix, toPath);
    }
    if workToDo {
      relay.compasNamTimerRunning := 1;
    }
  }

  /** COMPAS_PAM_PERIOD, in microseconds. */
  const COMPAS_PAM_PERIOD: nat
  const US_PER_MS: nat := 1000

  /**
   * The COMPAS_PAM_MSG case: a PAM is sent and the PAM timer re-armed
   * after the period plus a jitter of `jitterMs` milliseconds, which
   * random_uint32_range(0, 200) draws below 200.
   */
  method PamTick(relay: Relay, allocOk: bool, hdrOk: bool, pamBody: Dodag -> seq<byte>, jitterMs: nat)
    returns (attempt: Option<Compas.Frame>, rearmAfter: nat)
    requires jitterMs < 200
    requires allocOk && hdrOk ==> Compas.HasLiveIface(relay.ifs)
    ensures attempt.Some? <==> allocOk && hdrOk
    ensures attempt.Some? ==>
      attempt.value == Compas.Frame(true, [], relay.ifs[Compas.FirstLive(relay.ifs)].ifPid,
                                    Compas.CompasPayload(pamBody(relay.dodag)))
    ensures COMPAS_PAM_PERIOD <= rearmAfter < COMPAS_PAM_PERIOD + 200 * US_PER_MS
  {
    attempt := Compas.SendPam(relay, allocOk, hdrOk, pamBody);
    rearmAfter := COMPAS_PAM_PERIOD + jitterMs * US_PER_MS;
  }
}

=== FILE: content.dfy ===
/*
 * Content construction and release (ccnl_content_new, ccnl_content_free)
 * and the caching-strategy hooks: the two policy setters and the
 * admission and removal decisions that consult them.
 */
module ContentCore {
  import opened CcnlTypes

  /** A caller's `struct ccnl_pkt_s *` variable; None stands for NULL. */
  class PacketSlot {
    var pkt: Option<Packet>

    constructor (pkt: Option<Packet>)
      ensures this.pkt == pkt
    {
      this.pkt := pkt;
    }
  }

  /**
   * ccnl_content_new(pkt). `slot` is the `pkt` argument (null for NULL);
   * `allocOk` is whether the calloc succeeds; `now` is CCNL_NOW();
   * `toStr` is ccnl_prefix_to_str and `classify` is qos_traffic_class.
   * The function dereferences `*pkt`, so a non-NULL `pkt` must hold a
   * packet. On success the content owns the packet and the caller's
   * variable is cleared; on failure the caller keeps it.
   */
  method ContentNew(slot: PacketSlot?, allocOk: bool, now: int,
                    toStr: Prefix -> string, classify: string -> TrafficClass)
    returns (c: Option<Content>)
    requires slot != null ==> slot.pkt.Some?
    modifies slot
    ensures slot == null ==> c.None?
    ensures slot != null && !allocOk ==> c.None? && slot.pkt == old(slot.pkt)
    ensures slot != null && allocOk ==>
      c.Some? && c.value.pkt == old(slot.pkt) && slot.pkt.None? &&
      c.value.flags == CONTENT_FLAGS_NOT_STALE && c.value.lastUsed == now &&
      c.value.tclass == classify(toStr(old(slot.pkt).value.pfx)) &&
      c.value.retries == 0 && fresh(c.value.cstimeout)
  {
    if slot == null {
      return None;
    }
    if !allocOk {
      return None;
    }
    var ev := new TimerEvent();
    var owned := slot.pkt;
    slot.pkt := None;
    var s := toStr(owned.value.pfx);
    c := Some(Content(owned, CONTENT_FLAGS_NOT_STALE, now, classify(s), 0, ev));
  }

  /**
   * ccnl_content_free: -1 for NULL; otherwise 0, releasing the content's
   * packet when it has one (`released`).
   */
  method ContentFree(content: Option<Content>) returns (r: int, released: Option<Packet>)
    ensures content.None? ==> r == -1 && released.None?
    ensures content.Some? ==> r == 0 && released == content.value.pkt
  {
    if content.Some? {
      released := None;
      if content.value.pkt.Some? {
        released := content.value.pkt;
      }
      return 0, released;
    }
    return -1, None;
  }

  /**
   * What a removal callback returns: its status code and the store it
   * leaves behind (the callback receives the relay and may unlink entries).
   */
  datatype RemoveOutcome = RemoveOutcome(code: int, store: seq<Content>)

  /** ccnl_cache_strategy_func: called with the store and the new content. */
  type RemoveFn = (seq<Content>, Content) -> RemoveOutcome

  /** ccnl_cache_strategy_cache_func: store, content, pending PIT entries. */
  type DecisionFn = (seq<Content>, Content, int) -> int

  /** The two static policy pointers of ccnl-content.c; None is NULL. */
  class CachePolicy {
    var removeFunc: Option<RemoveFn>
    var decisionFunc: Option<DecisionFn>

    /** Both pointers start out NULL. */
    constructor ()
      ensures removeFunc.None? && decisionFunc.None?
    {
      removeFunc := None;
      decisionFunc := None;
    }

    /** ccnl_set_cache_strategy_remove */
    method SetCacheStrategyRemove(func: Option<RemoveFn>)
      modifies this
      ensures removeFunc == func && decisionFunc == old(decisionFunc)
    {
      removeFunc := func;
    }

    /** ccnl_set_cache_strategy_cache */
    method SetCacheStrategyCache(func: Option<DecisionFn>)
      modifies this
      ensures decisionFunc == func && removeFunc == old(removeFunc)
    {
      decisionFunc := func;
    }

    /**
     * cache_strategy_remove: 0 and the store untouched when no removal
     * function is set; otherwise exactly what the callback returns.
     */
    function CacheStrategyRemove(store: seq<Content>, c: Content): (r: RemoveOutcome)
      reads this
      ensures removeFunc.None? ==> r == RemoveOutcome(0, store)
      ensures removeFunc.Some? ==> r == removeFunc.value(store, c)
    {
      if removeFunc.Some? then removeFunc.value(store, c) else RemoveOutcome(0, store)
    }

    /**
     * cache_strategy_cache: whether content `c` is to be cached given the
     * store and the number of pending PIT entries. Reliable content is
     * always admitted; other content is admitted by the decision function
     * when one is set, and admitted unconditionally when none is.
     */
    function CacheStrategyCache(store: seq<Content>, c: Content, pitPending: int): (r: int)
      reads this
      ensures c.tclass.reliable ==> r == 1
      ensures !c.tclass.reliable && decisionFunc.Some? ==> r == decisionFunc.value(store, c, pitPending)
      ensures !c.tclass.reliable && decisionFunc.None? ==> r == 1
    {
      if c.tclass.reliable then 1
      else if decisionFunc.Some? then decisionFunc.value(store, c, pitPending)
      else 1
    }
  }

  /**
   * Admission in one statement: content is cached (1) exactly when it is
   * reliable, or no policy is set, or the policy says 1; any other answer
   * is the policy's own verdict on unreliable content.
   */
  lemma AdmissionCharacterised(p: CachePolicy, store: seq<Content>, c: Content, pending: int)
    ensures p.CacheStrategyCache(store, c, pending) == 1 <==>
      (c.tclass.reliable || p.decisionFunc.None? ||
       p.decisionFunc.value(store, c, pending) == 1)
    ensures p.CacheStrategyCache(store, c, pending) != 1 ==>
      !c.tclass.reliable && p.decisionFunc.Some?
  {
  }
}

=== FILE: content_store.dfy ===
/*
 * Unlinking an entry from the relay's content store (ccnl_content_remove).
 * The doubly linked list `ccnl->contents` is the sequence
 * `relay.contents`; an entry is addressed by its position.
 */
module ContentStore {
  import opened CcnlTypes

  /** The store with the entry at position `k` unlinked. */
  function RemoveAt(s: seq<Content>, k: nat): (r: seq<Content>)
    requires k < |s|
    ensures |r| == |s| - 1
  {
    s[..k] + s[k + 1..]
  }

  /** Entries are distinct structs: their embedded timer events differ. */
  predicate DistinctEntries(s: seq<Content>)
  {
    forall i, j :: 0 <= i < j < |s| ==> s[i].cstimeout != s[j].cstimeout
  }

  /**
   * Unlinking keeps every other entry, in its original relative order,
   * and removes exactly one occurrence of the unlinked one; when entries
   * are distinct it is gone from the store afterwards.
   */
  lemma {:induction false} RemoveAtProperties(s: seq<Content>, k: nat)
    requires k < |s|
    ensures forall j :: 0 <= j < k ==> RemoveAt(s, k)[j] == s[j]
    ensures forall j :: k <= j < |s| - 1 ==> RemoveAt(s, k)[j] == s[j + 1]
    ensures multiset(RemoveAt(s, k)) + multiset{s[k]} == multiset(s)
    ensures DistinctEntries(s) ==> s[k] !in RemoveAt(s, k) && DistinctEntries(RemoveAt(s, k))
  {
    assert s == s[..k] + [s[k]] + s[k + 1..];
    var r := RemoveAt(s, k);
    if DistinctEntries(s) {
      forall j | 0 <= j < |r|
        ensures r[j] != s[k]
      {
        if j < k {
          assert r[j].cstimeout == s[j].cstimeout != s[k].cstimeout;
        } else {
          assert r[j].cstimeout == s[j + 1].cstimeout != s[k].cstimeout;
        }
      }
    }
  }

  /**
   * ccnl_content_remove(ccnl, c) for the entry at position `k`: it is
   * unlinked, `contentcnt` drops by one, the successor (None when the
   * entry was last) is returned, and the entry's packet, with its prefix
   * and buffer, is released when it has one (`released`). Nothing else
   * in the relay changes.
   */
  method ContentRemove(relay: Relay, k: nat) returns (next: Option<Content>, released: Option<Packet>)
    requires relay.Valid() && k < |relay.contents|
    modifies relay
    ensures relay.Valid()
    ensures relay.contents == RemoveAt(old(relay.contents), k)
    ensures relay.contentcnt == old(relay.contentcnt) - 1
    ensures next == if k + 1 < |old(relay.contents)| then Some(old(relay.contents)[k + 1]) else None
    ensures released == old(relay.contents)[k].pkt
    ensures relay.pit == old(relay.pit) && relay.ifs == old(relay.ifs) && relay.dodag == old(relay.dodag)
    ensures relay.compasDodagParentTimeout == old(relay.compasDodagParentTimeout)
    ensures relay.compasNamTimerRunning == old(relay.compasNamTimerRunning)
  {
    var c := relay.contents[k];
    next := if k + 1 < |relay.contents| then Some(relay.contents[k + 1]) else None;
    relay.contents := relay.contents[..k] + relay.contents[k + 1..];
    released := None;
    if c.pkt.Some? {
      released := c.pkt;
    }
    relay.contentcnt := relay.contentcnt - 1;
  }
}

=== FILE: cstdlib.dfy ===
/*
 * The two C library conversions the NFN request code relies on: `strtol`
 * with base 0 (as nfn_request_get_arg_int calls it) and the "%d"
 * rendering of sprintf/snprintf. `long` is 32 bits wide on the RIOT
 * targets, so strtol saturates at the 32-bit bounds.
 */
module CStdlib {

  const LONG_MIN: int := -0x8000_0000
  const LONG_MAX: int := 0x7FFF_FFFF

  /** A value of C's 32-bit `int`/`long`. */
  type int32 = x: int | LONG_MIN <= x <= LONG_MAX

  /** isspace in the C locale. */
  predicate IsSpace(c: char)
  {
    c == ' ' || c == '\t' || c == '\n' || c == '\r' || c == 11 as char || c == 12 as char
  }

  /** The value of a digit in bases up to 36; 36 for a non-digit. */
  function DigitValue(c: char): (v: nat)
    ensures v <= 36
  {
    if '0' <= c <= '9' then c as nat - '0' as nat
    else if 'a' <= c <= 'z' then c as nat - 'a' as nat + 10
    else if 'A' <= c <= 'Z' then c as nat - 'A' as nat + 10
    else 36
  }

  /** The C string a character buffer holds: everything before the first NUL. */
  function CString(s: seq<char>): (r: seq<char>)
    ensures |r| <= |s| && r == s[..|r|]
    ensures '\0' !in r
    ensures |r| < |s| ==> s[|r|] == '\0'
  {
    if |s| == 0 || s[0] == '\0' then [] else [s[0]] + CString(s[1..])
  }

  /** Leading white space removed. */
  function SkipSpace(s: string): (r: string)
    ensures |r| <= |s|
    ensures |r| > 0 ==> !IsSpace(r[0])
  {
    if |s| > 0 && IsSpace(s[0]) then SkipSpace(s[1..]) else s
  }

  /** The longest prefix of `s` made of digits valid in `base`. */
  function LeadingDigits(s: string, base: nat): (r: string)
    ensures |r| <= |s| && r == s[..|r|]
    ensures forall k :: 0 <= k < |r| ==> DigitValue(r[k]) < base
  {
    if |s| > 0 && DigitValue(s[0]) < base then [s[0]] + LeadingDigits(s[1..], base) else []
  }

  /** The value of a digit string in `base`, most significant digit first. */
  function DigitsValue(ds: string, base: nat): nat
  {
    if |ds| == 0 then 0
    else DigitsValue(ds[..|ds| - 1], base) * base + DigitValue(ds[|ds| - 1])
  }

  /** Saturation of strtol at the bounds of `long`. */
  function ClampLong(v: int): int32
  {
    if v < LONG_MIN then LONG_MIN else if v > LONG_MAX then LONG_MAX else v
  }

  /**
   * The unsigned part of a strtol base-0 conversion: a hexadecimal number
   * after "0x"/"0X" when a hex digit follows, an octal one after a
   * leading 0, a decimal one otherwise; 0 when no digit follows.
   */
  function ParseMagnitude(u: string): nat
  {
    var hex := |u| >= 3 && u[0] == '0' && (u[1] == 'x' || u[1] == 'X') && DigitValue(u[2]) < 16;
    var base := if hex then 16 else if |u| > 0 && u[0] == '0' then 8 else 10;
    var body := if hex then u[2..] else u;
    DigitsValue(LeadingDigits(body, base), base)
  }

  /**
   * strtol(s, NULL, 0): skips white space, takes an optional sign, then
   * the unsigned part, saturated at the bounds of `long`.
   */
  function Strtol0(s: string): int32
  {
    var t := SkipSpace(s);
    if |t| > 0 && t[0] == '-' then ClampLong(-(ParseMagnitude(t[1..]) as int))
    else if |t| > 0 && t[0] == '+' then ClampLong(ParseMagnitude(t[1..]))
    else ClampLong(ParseMagnitude(t))
  }

  /** The character of a decimal digit. */
  function DigitChar(d: nat): (c: char)
    requires d < 10
    ensures DigitValue(c) == d
  {
    ('0' as nat + d) as char
  }

  /** "%d" of a non-negative number: its decimal digits, no leading zero. */
  function FormatNat(n: nat): (s: string)
    ensures |s| > 0
    ensures forall k :: 0 <= k < |s| ==> DigitValue(s[k]) < 10
    decreases n
  {
    if n < 10 then [DigitChar(n)] else FormatNat(n / 10) + [DigitChar(n % 10)]
  }

  /** "%d": a minus sign for negative numbers, then the decimal digits. */
  function FormatInt(n: int): (s: string)
    ensures |s| > 0
  {
    if n < 0 then ['-'] + FormatNat(-n) else FormatNat(n)
  }

  lemma {:induction false} FormatNatValue(n: nat)
    ensures DigitsValue(FormatNat(n), 10) == n
    decreases n
  {
    if n >= 10 {
      var s := FormatNat(n);
      assert s[..|s| - 1] == FormatNat(n / 10);
      FormatNatValue(n / 10);
    }
  }

  lemma {:induction false} FormatNatLeading(n: nat)
    ensures n > 0 ==> FormatNat(n)[0] != '0'
    ensures n == 0 ==> FormatNat(n) == ['0']
    decreases n
  {
    if n >= 10 {
      FormatNatLeading(n / 10);
    }
  }

  lemma {:induction false} LeadingDigitsOfDigits(s: string, base: nat)
    requires forall k :: 0 <= k < |s| ==> DigitValue(s[k]) < base
    ensures LeadingDigits(s, base) == s
    decreases |s|
  {
    if |s| > 0 {
      LeadingDigitsOfDigits(s[1..], base);
    }
  }

  lemma ParseMagnitudeOfFormat(m: nat)
    ensures ParseMagnitude(FormatNat(m)) == m
  {
    var digits := FormatNat(m);
    FormatNatValue(m);
    FormatNatLeading(m);
    if m == 0 {
      assert LeadingDigits(digits, 8) == digits;
      assert DigitsValue(digits, 8) == DigitsValue(digits[..0], 8) * 8 + 0;
    } else {
      LeadingDigitsOfDigits(digits, 10);
    }
  }

  lemma SkipSpaceNone(s: string)
    requires |s| > 0 && !IsSpace(s[0])
    ensures SkipSpace(s) == s
  {
  }

  lemma NegativeRoundTrip(n: int32)
    requires n < 0
    ensures Strtol0(FormatInt(n)) == n
  {
    var m: nat := -(n as int);
    var s := FormatInt(n);
    assert s == ['-'] + FormatNat(m);
    SkipSpaceNone(s);
    assert s[1..] == FormatNat(m);
    ParseMagnitudeOfFormat(m);
  }

  lemma NonNegativeRoundTrip(n: int32)
    requires n >= 0
    ensures Strtol0(FormatInt(n)) == n
  {
    var s := FormatNat(n);
    assert DigitValue(s[0]) < 10;
    SkipSpaceNone(s);
    ParseMagnitudeOfFormat(n);
  }

  /**
   * Reading back what "%d" wrote: strtol with base 0 on the rendering
   * of a 32-bit value gives that value.
   */
  lemma FormatIntRoundTrip(n: int32)
    ensures Strtol0(FormatInt(n)) == n
  {
    if n < 0 {
      NegativeRoundTrip(n);
    } else {
      NonNegativeRoundTrip(n);
    }
  }

  function Pow10(k: nat): (p: nat)
    ensures p >= 1
  {
    if k == 0 then 1 else 10 * Pow10(k - 1)
  }

  lemma {:induction false} FormatNatShort(m: nat, k: nat)
    requires k >= 1 && m < Pow10(k)
    ensures |FormatNat(m)| <= k
    decreases k
  {
    if m >= 10 {
      assert k >= 2;
      assert m / 10 < Pow10(k - 1);
      FormatNatShort(m / 10, k - 1);
    }
  }

  /** "%d" of a 32-bit value takes at most 11 characters (sign and ten digits). */
  lemma FormatIntLength(n: int32)
    ensures |FormatInt(n)| <= 11
  {
    assert Pow10(10) == 10000000000;
    var m: nat := if n < 0 then -(n as int) else n;
    FormatNatShort(m, 10);
  }

  /** A buffer holding `s` followed by a NUL holds the same C string as `s`. */
  lemma {:induction false} CStringOfTerminated(s: seq<char>, buf: seq<char>)
    requires |s| < |buf| && buf[..|s|] == s && buf[|s|] == '\0'
    ensures CString(buf) == CString(s)
    decreases |s|
  {
    if |s| > 0 && s[0] != '\0' {
      assert buf[0] == s[0];
      assert buf[1..][..|s| - 1] == s[1..];
      CStringOfTerminated(s[1..], buf[1..]);
    }
  }
}

=== FILE: dispatch.dfy ===
/*
 * The frame demultiplexer of the forwarder (ccnl_core_RX), the suite
 * registry it consults (ccnl_core_init) and the ICN LoWPAN hop-id name
 * lookup in the PIT (icnl_name_decompress).
 *
 * The per-suite parsers are not part of this model: the switch-marker
 * decoder, the encoding-to-suite map, the suite sniffer and the suite
 * forwarders are the fields of a `Wire`, constrained only by the byte
 * accounting that termination needs.
 */
module Dispatch {
  import opened CcnlTypes

  // Suite numbers of ccnl-defs.h (not part of this model), all suites enabled.
  const CCNL_SUITE_CCNB := 1
  const CCNL_SUITE_CCNTLV := 2
  const CCNL_SUITE_LOCALRPC := 5
  const CCNL_SUITE_NDNTLV := 6
  const CCNL_SUITE_LAST := 7

  /** ccnl_isSuite: the suite numbers compiled in. */
  predicate IsSuite(s: int)
  {
    s == CCNL_SUITE_CCNB || s == CCNL_SUITE_CCNTLV ||
    s == CCNL_SUITE_LOCALRPC || s == CCNL_SUITE_NDNTLV
  }

  /** The RX functions that can sit in the suite table. */
  datatype RxFn = CcnbForwarder | CcntlvForwarder | LocalrpcExec | NdntlvForwarder

  /** The content-match functions that can sit in the suite table. */
  datatype MatchFn = CcnbCMatch | CcntlvCMatch | NdntlvCMatch

  /** One entry of ccnl_core_suites; None stands for a NULL pointer. */
  datatype SuiteEntry = SuiteEntry(rx: Option<RxFn>, cMatch: Option<MatchFn>)

  /**
   * The collaborators of ccnl_core_RX:
   *  - `switchDehead(d)`: Some((enc, n)) when `d` starts with an encoding
   *    switch marker of `n` bytes, None when it does not;
   *  - `enc2suite(enc)`: the suite of an encoding, -1 if unknown;
   *  - `pkt2suite(d)`: the suite sniffed from the packet's first bytes;
   *  - `dispatch(f, d)`: the forwarder `f` run on `d`, giving its status
   *    and the number of bytes it consumed.
   */
  datatype Wire = Wire(
    switchDehead: seq<byte> -> Option<(int, nat)>,
    enc2suite: int -> int,
    pkt2suite: seq<byte> -> int,
    dispatch: (RxFn, seq<byte>) -> (int, nat))

  /**
   * What the demultiplexer relies on: a switch marker consumes at least
   * one and at most the available bytes; a forwarder never consumes more
   * than it was given and, when it succeeds on a non-empty buffer,
   * consumes at least one byte.
   */
  ghost predicate WellBehaved(w: Wire)
  {
    (forall d: seq<byte> :: w.switchDehead(d).Some? ==>
       0 < w.switchDehead(d).value.1 <= |d|) &&
    (forall f: RxFn, d: seq<byte> :: w.dispatch(f, d).1 <= |d| &&
       (w.dispatch(f, d).0 >= 0 && |d| > 0 ==> w.dispatch(f, d).1 > 0))
  }

  /** One call of a forwarder: the suite in force, the function, its input. */
  datatype Call = Call(suite: int, fn: RxFn, input: seq<byte>)

  /** How a frame's processing ended. */
  datatype RxEnd = NoFace | UnknownSuite | NoDispatcher | Stopped | Drained

  datatype RxResult = RxResult(calls: seq<Call>, end: RxEnd)

  /**
   * Strips every leading switch marker (the inner loop of ccnl_core_RX):
   * the remaining bytes and the suite then in force.
   */
  function StripSwitch(w: Wire, data: seq<byte>, suite: int): (r: (seq<byte>, int))
    requires WellBehaved(w)
    ensures |r.0| <= |data|
    decreases |data|
  {
    match w.switchDehead(data)
    case None => (data, suite)
    case Some((enc, n)) => StripSwitch(w, data[n..], w.enc2suite(enc))
  }

  /**
   * The start of the next packet and the suite it is handed to: the
   * bytes after the switch markers, and the markers' suite or, while the
   * suite is still -1, the sniffed one.
   */
  function Head(w: Wire, data: seq<byte>, suite: int): (h: (seq<byte>, int))
    requires WellBehaved(w)
    ensures |h.0| <= |data|
  {
    var stripped := StripSwitch(w, data, suite);
    (stripped.0, if stripped.1 == -1 then w.pkt2suite(stripped.0) else stripped.1)
  }

  /** The outcome of handling one packet of a frame. */
  datatype Step =
    | Halt(calls: seq<Call>, end: RxEnd)
    | Continue(call: Call, rest: seq<byte>, suite: int)

  /**
   * One iteration of the outer loop of ccnl_core_RX on a non-empty
   * remainder `data`, with `suite` carried over from the previous packet.
   */
  function RxStep(w: Wire, table: seq<SuiteEntry>, data: seq<byte>, suite: int): (st: Step)
    requires WellBehaved(w) && |table| == CCNL_SUITE_LAST && |data| > 0
    ensures st.Continue? ==> 0 < |st.rest| < |data|
  {
    var h := Head(w, data, suite);
    if !IsSuite(h.1) then Halt([], UnknownSuite)
    else if table[h.1].rx.None? then Halt([], NoDispatcher)
    else
      var call := Call(h.1, table[h.1].rx.value, h.0);
      var out := w.dispatch(call.fn, h.0);
      if out.0 < 0 then Halt([call], Stopped)
      else if |h.0| - out.1 > 0 then Continue(call, h.0[out.1..], h.1)
      else Halt([call], Drained)
  }

  /**
   * The packets of a non-empty remainder of a frame, `suite` being the
   * suite carried over from the previous packet (-1 for none yet).
   */
  function RxLoop(w: Wire, table: seq<SuiteEntry>, data: seq<byte>, suite: int): RxResult
    requires WellBehaved(w) && |table| == CCNL_SUITE_LAST && |data| > 0
    decreases |data|
  {
    match RxStep(w, table, data, suite)
    case Halt(calls, end) => RxResult(calls, end)
    case Continue(call, rest, s) =>
      var r := RxLoop(w, table, rest, s);
      RxResult([call] + r.calls, r.end)
  }

  /** The forwarder calls a received frame causes, and how it ends. */
  function Rx(w: Wire, table: seq<SuiteEntry>, hasFace: bool, data: seq<byte>): RxResult
    requires WellBehaved(w) && |table| == CCNL_SUITE_LAST
  {
    if !hasFace then RxResult([], NoFace)
    else if |data| == 0 then RxResult([], Drained)
    else RxLoop(w, table, data, -1)
  }

  /** The table ccnl_core_init leaves behind, from the table before it. */
  function InitTable(t: seq<SuiteEntry>): (r: seq<SuiteEntry>)
    requires |t| == CCNL_SUITE_LAST
    ensures |r| == CCNL_SUITE_LAST
  {
    t[CCNL_SUITE_CCNB := SuiteEntry(Some(CcnbForwarder), Some(CcnbCMatch))]
     [CCNL_SUITE_CCNTLV := SuiteEntry(Some(CcntlvForwarder), Some(CcntlvCMatch))]
     [CCNL_SUITE_LOCALRPC := t[CCNL_SUITE_LOCALRPC].(rx := Some(LocalrpcExec))]
     [CCNL_SUITE_NDNTLV := SuiteEntry(Some(NdntlvForwarder), Some(NdntlvCMatch))]
  }

  /** The marker-stripping inner loop of ccnl_core_RX. */
  method StripMarkers(w: Wire, data: seq<byte>, suite: int) returns (rest: seq<byte>, s: int)
    requires WellBehaved(w)
    ensures (rest, s) == StripSwitch(w, data, suite)
  {
    rest, s := data, suite;
    var marker := w.switchDehead(rest);
    while marker.Some?
      invariant marker == w.switchDehead(rest)
      invariant StripSwitch(w, rest, s) == StripSwitch(w, data, suite)
      decreases |rest|
    {
      s := w.enc2suite(marker.value.0);
      rest := rest[marker.value.1..];
      marker := w.switchDehead(rest);
    }
  }

  /** The forwarder's global suite table (ccnl_core_suites). */
  class SuiteTable {
    const suites: array<SuiteEntry>

    ghost predicate Valid()
    {
      suites.Length == CCNL_SUITE_LAST
    }

    constructor ()
      ensures Valid() && fresh(suites)
      ensures forall s :: 0 <= s < suites.Length ==> suites[s] == SuiteEntry(None, None)
    {
      suites := new SuiteEntry[CCNL_SUITE_LAST](_ => SuiteEntry(None, None));
    }

    /**
     * ccnl_core_init: installs RX and cMatch for CCNB, CCNTLV and NDNTLV,
     * only RX for LOCALRPC, and leaves every other entry as it was.
     */
    method CoreInit()
      requires Valid()
      modifies suites
      ensures suites[..] == InitTable(old(suites[..]))
      ensures suites[CCNL_SUITE_CCNB] == SuiteEntry(Some(CcnbForwarder), Some(CcnbCMatch))
      ensures suites[CCNL_SUITE_CCNTLV] == SuiteEntry(Some(CcntlvForwarder), Some(CcntlvCMatch))
      ensures suites[CCNL_SUITE_NDNTLV] == SuiteEntry(Some(NdntlvForwarder), Some(NdntlvCMatch))
      ensures suites[CCNL_SUITE_LOCALRPC].rx == Some(LocalrpcExec)
      ensures suites[CCNL_SUITE_LOCALRPC].cMatch == old(suites[CCNL_SUITE_LOCALRPC].cMatch)
      ensures forall s :: 0 <= s < suites.Length && !IsSuite(s) ==> suites[s] == old(suites[s])
    {
      suites[CCNL_SUITE_CCNB] := suites[CCNL_SUITE_CCNB].(rx := Some(CcnbForwarder));
      suites[CCNL_SUITE_CCNB] := suites[CCNL_SUITE_CCNB].(cMatch := Some(CcnbCMatch));
      suites[CCNL_SUITE_CCNTLV] := suites[CCNL_SUITE_CCNTLV].(rx := Some(CcntlvForwarder));
      suites[CCNL_SUITE_CCNTLV] := suites[CCNL_SUITE_CCNTLV].(cMatch := Some(CcntlvCMatch));
      suites[CCNL_SUITE_LOCALRPC] := suites[CCNL_SUITE_LOCALRPC].(rx := Some(LocalrpcExec));
      suites[CCNL_SUITE_NDNTLV] := suites[CCNL_SUITE_NDNTLV].(rx := Some(NdntlvForwarder));
      suites[CCNL_SUITE_NDNTLV] := suites[CCNL_SUITE_NDNTLV].(cMatch := Some(NdntlvCMatch));
    }

    /**
     * One pass of the outer loop of ccnl_core_RX on the non-empty
     * remainder `data`: strip the switch markers, sniff the suite while
     * none is known, look up the forwarder and run it.
     */
    method PacketStep(w: Wire, data: seq<byte>, suite: int) returns (st: Step)
      requires Valid() && WellBehaved(w) && |data| > 0
      ensures st == RxStep(w, suites[..], data, suite)
    {
      var rest, s := StripMarkers(w, data, suite);
      if s == -1 {
        s := w.pkt2suite(rest);
      }
      assert Head(w, data, suite) == (rest, s);
      if !IsSuite(s) {
        return Halt([], UnknownSuite);
      }
      var dispatch := suites[s].rx;
      if dispatch.None? {
        return Halt([], NoDispatcher);
      }
      var call := Call(s, dispatch.value, rest);
      var out := w.dispatch(dispatch.value, rest);
      if out.0 < 0 {
        return Halt([call], Stopped);
      }
      rest := rest[out.1..];
      if |rest| > 0 {
        st := Continue(call, rest, s);
      } else {
        st := Halt([call], Drained);
      }
    }

    /**
     * ccnl_core_RX on a frame `data` whose sender face could (`hasFace`)
     * or could not be obtained: the forwarder calls made and how the
     * frame ended are those of `Rx`.
     */
    method CoreRX(w: Wire, hasFace: bool, data: seq<byte>) returns (r: RxResult)
      requires Valid() && WellBehaved(w)
      ensures r == Rx(w, suites[..], hasFace, data)
    {
      if !hasFace {
        return RxResult([], NoFace);
      }
      ghost var table := suites[..];
      var rest := data;
      var suite := -1;
      var calls: seq<Call> := [];
      while |rest| > 0
        invariant |rest| > 0 ==>
          Rx(w, table, hasFace, data) ==
          RxResult(calls + RxLoop(w, table, rest, suite).calls, RxLoop(w, table, rest, suite).end)
        invariant |rest| == 0 ==> Rx(w, table, hasFace, data) == RxResult(calls, Drained)
        decreases |rest|
      {
        var st := PacketStep(w, rest, suite);
        if st.Halt? {
          return RxResult(calls + st.calls, st.end);
        }
        ghost var tail := RxLoop(w, table, st.rest, st.suite);
        assert calls + ([st.call] + tail.calls) == (calls + [st.call]) + tail.calls;
        calls := calls + [st.call];
        rest, suite := st.rest, st.suite;
      }
      r := RxResult(calls, Drained);
    }
  }

  // ---------------------------------------------------------------------
  // Properties of the demultiplexer

  /** Without a face nothing is dispatched. */
  lemma NoFaceNoCalls(w: Wire, table: seq<SuiteEntry>, data: seq<byte>)
    requires WellBehaved(w) && |table| == CCNL_SUITE_LAST
    ensures Rx(w, table, false, data) == RxResult([], NoFace)
  {
  }

  /**
   * Stripping consumes every leading marker; with no marker the suite is
   * unchanged, and with one the suite in force before does not matter:
   * the markers alone decide it.
   */
  lemma {:induction false} StripSwitchProperties(w: Wire, data: seq<byte>, suite: int, other: int)
    requires WellBehaved(w)
    ensures w.switchDehead(StripSwitch(w, data, suite).0).None?
    ensures w.switchDehead(data).None? ==> StripSwitch(w, data, suite) == (data, suite)
    ensures w.switchDehead(data).Some? ==> StripSwitch(w, data, suite) == StripSwitch(w, data, other)
    decreases |data|
  {
    match w.switchDehead(data)
    case None =>
    case Some((enc, n)) =>
      StripSwitchProperties(w, data[n..], w.enc2suite(enc), other);
  }

  /**
   * A switch marker whose encoding maps to no suite (-1) does not abort
   * the frame by itself: the suite is then sniffed from the bytes after
   * the markers, as for a frame without markers.
   */
  lemma {:induction false} UnknownEncodingFallsBackToSniffing(w: Wire, table: seq<SuiteEntry>,
                                                               data: seq<byte>, suite: int)
    requires WellBehaved(w) && |table| == CCNL_SUITE_LAST && |data| > 0
    requires StripSwitch(w, data, suite).1 == -1
    requires IsSuite(w.pkt2suite(StripSwitch(w, data, suite).0))
    requires table[w.pkt2suite(StripSwitch(w, data, suite).0)].rx.Some?
    ensures |RxLoop(w, table, data, suite).calls| > 0
    ensures RxLoop(w, table, data, suite).calls[0] ==
            Call(w.pkt2suite(StripSwitch(w, data, suite).0),
                 table[w.pkt2suite(StripSwitch(w, data, suite).0)].rx.value,
                 StripSwitch(w, data, suite).0)
  {
  }

  /** Every call made goes to the RX entry registered for a known suite. */
  lemma {:induction false} CallsAreRegistered(w: Wire, table: seq<SuiteEntry>, data: seq<byte>, suite: int)
    requires WellBehaved(w) && |table| == CCNL_SUITE_LAST && |data| > 0
    ensures forall c :: c in RxLoop(w, table, data, suite).calls ==>
              IsSuite(c.suite) && table[c.suite].rx == Some(c.fn)
    decreases |data|
  {
    match RxStep(w, table, data, suite)
    case Halt(_, _) =>
    case Continue(_, rest, s) => CallsAreRegistered(w, table, rest, s);
  }

  /** Each call consumes a byte, so a frame causes at most one call per byte. */
  lemma {:induction false} CallsBounded(w: Wire, table: seq<SuiteEntry>, data: seq<byte>, suite: int)
    requires WellBehaved(w) && |table| == CCNL_SUITE_LAST && |data| > 0
    ensures |RxLoop(w, table, data, suite).calls| <= |data|
    decreases |data|
  {
    match RxStep(w, table, data, suite)
    case Halt(_, _) =>
    case Continue(_, rest, s) => CallsBounded(w, table, rest, s);
  }

  /** Frame-level form of `CallsBounded`. */
  lemma FrameCallsBounded(w: Wire, table: seq<SuiteEntry>, hasFace: bool, data: seq<byte>)
    requires WellBehaved(w) && |table| == CCNL_SUITE_LAST
    ensures |Rx(w, table, hasFace, data).calls| <= |data|
  {
    if hasFace && |data| > 0 {
      CallsBounded(w, table, data, -1);
    }
  }

  /** Once a suite is in force and no marker ever appears, every call uses it. */
  lemma {:induction false} SuiteCarriedOver(w: Wire, table: seq<SuiteEntry>, data: seq<byte>, suite: int)
    requires WellBehaved(w) && |table| == CCNL_SUITE_LAST && |data| > 0
    requires forall d: seq<byte> :: w.switchDehead(d).None?
    requires suite != -1
    ensures forall c :: c in RxLoop(w, table, data, suite).calls ==> c.suite == suite
    decreases |data|
  {
    StripSwitchProperties(w, data, suite, suite);
    match RxStep(w, table, data, suite)
    case Halt(_, _) =>
    case Continue(_, rest, s) => SuiteCarriedOver(w, table, rest, s);
  }

  /**
   * The suite is sniffed once per frame: in a frame without switch
   * markers, every packet is handed to the suite of the first packet.
   */
  lemma {:induction false} SuiteSniffedOnce(w: Wire, table: seq<SuiteEntry>, data: seq<byte>)
    requires WellBehaved(w) && |table| == CCNL_SUITE_LAST && |data| > 0
    requires forall d: seq<byte> :: w.switchDehead(d).None?
    ensures forall c :: c in Rx(w, table, true, data).calls ==> c.suite == w.pkt2suite(data)
  {
    StripSwitchProperties(w, data, -1, -1);
    match RxStep(w, table, data, -1)
    case Halt(_, _) =>
    case Continue(_, rest, s) => SuiteCarriedOver(w, table, rest, s);
  }

  /** After ccnl_core_init no known suite lacks a dispatcher. */
  lemma {:induction false} InitTableHasDispatchers(w: Wire, t: seq<SuiteEntry>, data: seq<byte>, suite: int)
    requires WellBehaved(w) && |t| == CCNL_SUITE_LAST && |data| > 0
    ensures RxLoop(w, InitTable(t), data, suite).end != NoDispatcher
    decreases |data|
  {
    var h := Head(w, data, suite);
    assert IsSuite(h.1) ==> InitTable(t)[h.1].rx.Some?;
    match RxStep(w, InitTable(t), data, suite)
    case Halt(_, _) =>
    case Continue(_, rest, s) => InitTableHasDispatchers(w, t, rest, s);
  }

  // ---------------------------------------------------------------------
  // ICN LoWPAN name decompression

  /** The PIT entry has a pending record whose outgoing hop id is `hop`. */
  predicate HasHop(i: Interest, hop: int)
  {
    exists k :: 0 <= k < |i.pending| && i.pending[k].hopIdOut == hop
  }

  /** Position of the first PIT entry, in list order, with hop id `hop`. */
  function FirstHopMatch(pit: seq<Interest>, hop: int): (r: Option<nat>)
    ensures r.Some? ==> r.value < |pit| && HasHop(pit[r.value], hop) &&
                        forall j :: 0 <= j < r.value ==> !HasHop(pit[j], hop)
    ensures r.None? ==> forall j :: 0 <= j < |pit| ==> !HasHop(pit[j], hop)
  {
    if |pit| == 0 then None
    else if HasHop(pit[0], hop) then Some(0)
    else match FirstHopMatch(pit[1..], hop)
      case None => None
      case Some(k) => Some(k + 1)
  }

  /** `nameptr` holds a type byte, a length byte and that many name bytes. */
  predicate EncodedName(nameptr: seq<byte>)
  {
    |nameptr| >= 2 && |nameptr| >= 2 + nameptr[1] as int
  }

  /** The matching entry, if any, carries a well-formed encoded name. */
  predicate DecompressibleAt(pit: seq<Interest>, hop: int)
  {
    match FirstHopMatch(pit, hop)
    case None => true
    case Some(k) => EncodedName(pit[k].pkt.pfx.nameptr)
  }

  /**
   * icnl_name_decompress: the name of the first PIT entry that has a
   * pending record for `hopId`, taken from its encoded name (length byte
   * then bytes); length 0 and nothing copied when no entry matches.
   */
  method NameDecompress(relay: Relay, hopId: byte) returns (nameLen: nat, out: seq<byte>)
    requires DecompressibleAt(relay.pit, hopId)
    ensures match FirstHopMatch(relay.pit, hopId)
      case None => nameLen == 0 && out == []
      case Some(k) =>
        var np := relay.pit[k].pkt.pfx.nameptr;
        nameLen == np[1] && out == np[2..2 + np[1]]
  {
    var pit := relay.pit;
    var i := 0;
    var dobreak := false;
    while i < |pit|
      invariant 0 <= i <= |pit|
      invariant forall j :: 0 <= j < i ==> !HasHop(pit[j], hopId)
      invariant !dobreak
    {
      var pend := pit[i].pending;
      var p := 0;
      while p < |pend|
        invariant 0 <= p <= |pend|
        invariant forall q :: 0 <= q < p ==> pend[q].hopIdOut != hopId
      {
        if pend[p].hopIdOut == hopId {
          dobreak := true;
          break;
        }
        p := p + 1;
      }
      if dobreak {
        assert HasHop(pit[i], hopId);
        break;
      }
      i := i + 1;
    }
    if i < |pit| {
      var np := pit[i].pkt.pfx.nameptr;
      nameLen := np[1];
      out := np[2..2 + nameLen];
      return;
    }
    nameLen := 0;
    out := [];
  }
}

=== FILE: nfn_requests.dfy ===
/*
 * NFN requests: a name component such as "CIM 3" names a command
 * (a table name that is a prefix of the component) and an optional
 * argument after a space. A request object holds the component, the
 * command type and the argument; the argument is read and written as a
 * decimal number, the component can be rebuilt from type and argument,
 * and relays answer keep-alive and count-intermediates interests.
 */
module NfnRequests {
  import opened CcnlTypes
  import opened CStdlib

  // enum nfn_request_type
  const UNKNOWN: nat := 0
  const START: nat := 1
  const PAUSE: nat := 2
  const RESUME: nat := 3
  const CANCEL: nat := 4
  const STATUS: nat := 5
  const KEEPALIVE: nat := 6
  const COUNT_INTERMEDIATES: nat := 7
  const GET_INTERMEDIATE: nat := 8
  const REQUEST_TYPE_MAX: nat := GET_INTERMEDIATE

  /** nfn_request_names: the name of type t sits at index t - 1. */
  const RequestNames: seq<string> :=
    ["START", "PAUSE", "RESUME", "CANCEL", "STATUS", "KEEPALIVE", "CIM", "GIM"]

  /** Table name `i` is a prefix of `comp` (the strncmp test). */
  predicate NameMatches(i: nat, comp: seq<char>)
    requires i < REQUEST_TYPE_MAX
  {
    |RequestNames[i]| <= |comp| && comp[..|RequestNames[i]|] == RequestNames[i]
  }

  /** The first table index at or after `from` whose name is a prefix of `comp`. */
  function FirstNameMatch(comp: seq<char>, from: nat): (r: Option<nat>)
    requires from <= REQUEST_TYPE_MAX
    ensures r.Some? ==> from <= r.value < REQUEST_TYPE_MAX && NameMatches(r.value, comp)
    ensures r.Some? ==> forall j :: from <= j < r.value ==> !NameMatches(j, comp)
    ensures r.None? ==> forall j :: from <= j < REQUEST_TYPE_MAX ==> !NameMatches(j, comp)
    decreases REQUEST_TYPE_MAX - from
  {
    if from == REQUEST_TYPE_MAX then None
    else if NameMatches(from, comp) then Some(from)
    else FirstNameMatch(comp, from + 1)
  }

  /**
   * The type nfn_request_new assigns: i + 1 for the first table name, in
   * order, that is a prefix of the component; UNKNOWN when none is.
   */
  function RequestType(comp: seq<char>): (t: nat)
    ensures t <= REQUEST_TYPE_MAX
    ensures t == UNKNOWN <==> forall j :: 0 <= j < REQUEST_TYPE_MAX ==> !NameMatches(j, comp)
    ensures t != UNKNOWN ==> NameMatches(t - 1, comp)
    ensures t != UNKNOWN ==> forall j :: 0 <= j < t - 1 ==> !NameMatches(j, comp)
  {
    match FirstNameMatch(comp, 0)
    case None => UNKNOWN
    case Some(i) => i + 1
  }

  /**
   * The argument nfn_request_new extracts: present only for a known type
   * when the component goes on with a space and at least one character;
   * then the C string held by the bytes after the space.
   */
  function RequestArg(comp: seq<char>): Option<string>
  {
    var t := RequestType(comp);
    if t == UNKNOWN then None
    else
      var len := |RequestNames[t - 1]|;
      if |comp| >= len + 2 && comp[len] == ' ' then Some(CString(comp[len + 1..])) else None
  }

  /**
   * The table scan of nfn_request_new: the type and the length of the
   * matched name.
   */
  method MatchRequestName(comp: seq<char>) returns (rtype: nat, nameLen: nat)
    ensures rtype == RequestType(comp)
    ensures rtype != UNKNOWN ==> nameLen == |RequestNames[rtype - 1]|
  {
    rtype := UNKNOWN;
    nameLen := 0;
    var i := 0;
    while i < REQUEST_TYPE_MAX
      invariant 0 <= i <= REQUEST_TYPE_MAX
      invariant forall j :: 0 <= j < i ==> !NameMatches(j, comp)
    {
      var name := RequestNames[i];
      nameLen := |name|;
      if nameLen <= |comp| && comp[..nameLen] == name {
        rtype := i + 1;
        return;
      }
      i := i + 1;
    }
  }

  /**
   * nfn_request_new(comp, complen); `allocOk` is whether the calloc of
   * the request succeeds (NULL otherwise). The component is copied
   * verbatim and the type and argument are those the component names.
   */
  method RequestNew(comp: seq<char>, allocOk: bool) returns (r: NfnRequest?)
    ensures !allocOk ==> r == null
    ensures allocOk ==> r != null && fresh(r)
    ensures r != null ==> r.comp == comp && r.rtype == RequestType(comp) && r.arg == RequestArg(comp)
  {
    if !allocOk {
      return null;
    }
    var rtype, nameLen := MatchRequestName(comp);
    if rtype == UNKNOWN {
      r := new NfnRequest(comp, rtype, None);
      return;
    }
    var arg: Option<string> := None;
    if |comp| >= nameLen + 2 && comp[nameLen] == ' ' {
      arg := Some(CString(comp[nameLen + 1..]));
    }
    r := new NfnRequest(comp, rtype, arg);
  }

  /**
   * nfn_request_copy: NULL for NULL, and NULL when the allocation of the
   * copy fails; otherwise a fresh request parsed again from the same
   * component, which for a request built by RequestNew has the same type
   * and argument.
   */
  method RequestCopy(r: NfnRequest?, allocOk: bool) returns (c: NfnRequest?)
    ensures r == null ==> c == null
    ensures r != null ==> (c != null <==> allocOk)
    ensures c != null ==> fresh(c)
    ensures c != null ==> (r != null && c.comp == r.comp &&
      c.rtype == RequestType(r.comp) && c.arg == RequestArg(r.comp))
    ensures c != null && r.rtype == RequestType(r.comp) && r.arg == RequestArg(r.comp) ==>
      c.rtype == r.rtype && c.arg == r.arg
  {
    if r == null {
      return null;
    }
    c := RequestNew(r.comp, allocOk);
  }

  /** nfn_request_get_arg_int: strtol(arg, NULL, 0); the argument must be set. */
  function GetArgInt(r: NfnRequest): int32
    reads r
    requires r.arg.Some?
  {
    Strtol0(r.arg.value)
  }

  /**
   * nfn_request_set_arg_int: the argument becomes the decimal rendering
   * of `n`, which GetArgInt reads back as `n`. The component is not
   * touched.
   */
  method SetArgInt(r: NfnRequest, n: int32)
    modifies r
    ensures r.arg == Some(FormatInt(n))
    ensures GetArgInt(r) == n
    ensures r.comp == old(r.comp) && r.rtype == old(r.rtype)
  {
    r.arg := Some(FormatInt(n));
    FormatIntRoundTrip(n);
  }

  /**
   * The component nfn_request_update_component builds: the table entry at
   * index `rtype` (not `rtype - 1`), the separator byte, and the argument.
   */
  function ComponentAsWritten(rtype: nat, sep: char, arg: string): seq<char>
    requires rtype < REQUEST_TYPE_MAX
  {
    RequestNames[rtype] + [sep] + CString(arg)
  }

  /**
   * nfn_request_update_component. The separator is the low byte of the
   * address of a string literal, so it is a parameter here. The table
   * lookup is in bounds only below GIM and strlen needs an argument.
   */
  method UpdateComponent(r: NfnRequest, sep: char)
    requires r.rtype < REQUEST_TYPE_MAX && r.arg.Some?
    requires sep as int < 256
    modifies r
    ensures r.comp == ComponentAsWritten(old(r.rtype), sep, old(r.arg).value)
    ensures |r.comp| == |RequestNames[old(r.rtype)]| + 1 + |CString(old(r.arg).value)|
    ensures r.rtype == old(r.rtype) && r.arg == old(r.arg)
  {
    var command := RequestNames[r.rtype];
    var arg := CString(r.arg.value);
    r.comp := command + [sep] + arg;
  }

  /** The component as evidently intended: the type's own name, a space, the argument. */
  function IntendedComponent(rtype: nat, arg: string): seq<char>
    requires 1 <= rtype <= REQUEST_TYPE_MAX
  {
    RequestNames[rtype - 1] + " " + CString(arg)
  }

  // ---------------------------------------------------------------------
  // Parsing what the serialisers produce

  /** No table name is a prefix of another: two names differ at a common position. */
  lemma NamesDiverge(i: nat, j: nat)
    requires i < REQUEST_TYPE_MAX && j < REQUEST_TYPE_MAX && i != j
    ensures exists k :: (0 <= k < |RequestNames[i]| && k < |RequestNames[j]| &&
      RequestNames[i][k] != RequestNames[j][k])
  {
    var k := if (i == 0 && j == 4) || (i == 4 && j == 0) then 3
      else if (i == 3 && j == 6) || (i == 6 && j == 3) then 1
      else 0;
    assert RequestNames[i][k] != RequestNames[j][k];
  }

  /** A component that starts with table name `i` has type i + 1, whatever follows. */
  lemma NamedComponentType(i: nat, rest: seq<char>)
    requires i < REQUEST_TYPE_MAX
    ensures RequestType(RequestNames[i] + rest) == i + 1
  {
    var comp := RequestNames[i] + rest;
    assert comp[..|RequestNames[i]|] == RequestNames[i];
    forall j | 0 <= j < i
      ensures !NameMatches(j, comp)
    {
      NamesDiverge(j, i);
      var k :| 0 <= k < |RequestNames[j]| && k < |RequestNames[i]| &&
        RequestNames[j][k] != RequestNames[i][k];
      assert comp[k] == RequestNames[i][k];
    }
    assert NameMatches(i, comp);
  }

  /**
   * The intended serialisation parses back: the type is recovered, and
   * so is the argument whenever it is non-empty.
   */
  lemma IntendedComponentRoundTrip(rtype: nat, arg: string)
    requires 1 <= rtype <= REQUEST_TYPE_MAX
    ensures RequestType(IntendedComponent(rtype, arg)) == rtype
    ensures RequestArg(IntendedComponent(rtype, arg)) ==
      if CString(arg) == [] then None else Some(CString(arg))
  {
    var name := RequestNames[rtype - 1];
    var a := CString(arg);
    NamedComponentType(rtype - 1, " " + a);
    var comp := IntendedComponent(rtype, arg);
    assert comp == name + (" " + a);
    assert comp[|name| + 1..] == a;
    CStringOfCString(a);
  }

  lemma CStringOfCString(s: string)
    requires '\0' !in s
    ensures CString(s) == s
  {
    if |s| > 0 {
      assert s[0] != '\0';
      CStringOfCString(s[1..]);
    }
  }

  /**
   * update_component as written does not round-trip: re-parsing its
   * component yields the type after the request's own, never its own.
   */
  lemma UpdateComponentShiftsType(rtype: nat, sep: char, arg: string)
    requires rtype < REQUEST_TYPE_MAX
    ensures RequestType(ComponentAsWritten(rtype, sep, arg)) == rtype + 1
    ensures RequestType(ComponentAsWritten(rtype, sep, arg)) != rtype
  {
    assert ComponentAsWritten(rtype, sep, arg) == RequestNames[rtype] + ([sep] + CString(arg));
    NamedComponentType(rtype, [sep] + CString(arg));
  }

  /** With a separator byte other than a space, the argument is lost on re-parsing. */
  lemma UpdateComponentLosesArgument(rtype: nat, sep: char, arg: string)
    requires rtype < REQUEST_TYPE_MAX && sep != ' '
    ensures RequestArg(ComponentAsWritten(rtype, sep, arg)) == None
  {
    UpdateComponentShiftsType(rtype, sep, arg);
    assert ComponentAsWritten(rtype, sep, arg)[|RequestNames[rtype]|] == sep;
  }

  /** A concrete case: a START request with argument "3" comes back as PAUSE. */
  lemma UpdateComponentStartBecomesPause()
    ensures ComponentAsWritten(START, ' ', "3") == "PAUSE 3"
    ensures RequestType(ComponentAsWritten(START, ' ', "3")) == PAUSE
  {
    UpdateComponentShiftsType(START, ' ', "3");
    CStringOfCString("3");
  }

  // ---------------------------------------------------------------------
  // Description

  /** The component part of a description: empty for an empty component. */
  function CompText(comp: seq<char>): string
  {
    if |comp| > 0 then "comp: " + CString(comp) + ", " else ""
  }

  /** The type part of a description. */
  function TypeText(rtype: nat): string
    requires rtype <= REQUEST_TYPE_MAX
  {
    "type: " + (if rtype == UNKNOWN then "UNKNOWN" else RequestNames[rtype - 1]) + ", "
  }

  /** The argument part of a description; NULL prints as "(null)", as the C library does. */
  function ArgText(arg: Option<string>): string
  {
    "arg: " + (if arg.None? then "(null)" else CString(arg.value))
  }

  /**
   * The text nfn_request_description_new writes for a request: the
   * component (when non-empty), the type name and the argument, in
   * "request(...)".
   */
  function Description(comp: seq<char>, rtype: nat, arg: Option<string>): string
    requires rtype <= REQUEST_TYPE_MAX
  {
    "request(" + CompText(comp) + TypeText(rtype) + ArgText(arg) + ")"
  }

  /** Size of the buffer description_new allocates. */
  const DESCRIPTION_BUF: nat := 256

  /**
   * nfn_request_description_new: the text appended into the buffer
   * ("request(NULL)" for NULL). The buffer's bound is not checked.
   */
  method DescriptionNew(r: NfnRequest?) returns (buf: string)
    requires r != null ==> r.rtype <= REQUEST_TYPE_MAX
    ensures r == null ==> buf == "request(NULL)"
    ensures r != null ==> buf == Description(r.comp, r.rtype, r.arg)
  {
    if r == null {
      buf := "request(NULL)";
      return;
    }
    buf := "request(";
    if |r.comp| > 0 {
      buf := buf + ("comp: " + CString(r.comp) + ", ");
    }
    assert buf == "request(" + CompText(r.comp);
    if r.rtype == UNKNOWN {
      buf := buf + ("type: " + "UNKNOWN" + ", ");
    } else {
      buf := buf + ("type: " + RequestNames[r.rtype - 1] + ", ");
    }
    buf := buf + ("arg: " + (if r.arg.None? then "(null)" else CString(r.arg.value)));
    buf := buf + ")";
  }

  /**
   * The description, with its terminating NUL, does not always fit the
   * 256-byte buffer: a 250-character unknown component overflows it.
   */
  lemma DescriptionOverflowsBuffer()
    ensures |Description(seq(250, _ => 'a'), UNKNOWN, None)| + 1 > DESCRIPTION_BUF
  {
    var comp := seq(250, _ => 'a');
    CStringOfCString(comp);
  }

  /** The description as a bounded write (snprintf into the buffer) leaves it. */
  function BoundedDescription(comp: seq<char>, rtype: nat, arg: Option<string>): string
    requires rtype <= REQUEST_TYPE_MAX
  {
    var d := Description(comp, rtype, arg);
    if |d| < DESCRIPTION_BUF then d else d[..DESCRIPTION_BUF - 1]
  }

  /**
   * The bounded description always fits with its NUL, is a prefix of the
   * full text, and is the full text whenever that fits.
   */
  lemma BoundedDescriptionFits(comp: seq<char>, rtype: nat, arg: Option<string>)
    requires rtype <= REQUEST_TYPE_MAX
    ensures |BoundedDescription(comp, rtype, arg)| + 1 <= DESCRIPTION_BUF
    ensures BoundedDescription(comp, rtype, arg) <= Description(comp, rtype, arg)
    ensures |Description(comp, rtype, arg)| < DESCRIPTION_BUF ==>
      BoundedDescription(comp, rtype, arg) == Description(comp, rtype, arg)
  {
  }

  // ---------------------------------------------------------------------
  // Intermediate results

  /** The request object carried by a content's name, if any. */
  function RequestOf(c: Content): NfnRequest?
  {
    if c.pkt.Some? then c.pkt.value.pfx.request else null
  }

  /**
   * A content intermediate_num consults: its name is an intermediate
   * result (the `isIntermediate` classifier) and extends `p`.
   */
  predicate Counted(c: Content, p: Prefix, isIntermediate: Prefix -> bool)
  {
    c.pkt.Some? && isIntermediate(c.pkt.value.pfx) && Extends(c.pkt.value.pfx, p)
  }

  /**
   * What intermediate_num dereferences: every content has a packet, and
   * a consulted one carries a request with an argument.
   */
  predicate Readable(c: Content, p: Prefix, isIntermediate: Prefix -> bool)
    reads RequestOf(c)
  {
    c.pkt.Some? &&
    (Counted(c, p, isIntermediate) ==> RequestOf(c) != null && RequestOf(c).arg.Some?)
  }

  ghost function RequestsOf(cs: seq<Content>): set<NfnRequest>
  {
    set k | 0 <= k < |cs| && RequestOf(cs[k]) != null :: RequestOf(cs[k])
  }

  /** Every content of `cs` is Readable. */
  predicate AllReadable(cs: seq<Content>, p: Prefix, isIntermediate: Prefix -> bool)
    reads RequestsOf(cs)
  {
    forall k :: 0 <= k < |cs| ==> Readable(cs[k], p, isIntermediate)
  }

  /** The numeric argument of a consulted content. */
  function ArgOf(c: Content, p: Prefix, isIntermediate: Prefix -> bool): int32
    reads RequestOf(c)
    requires Readable(c, p, isIntermediate) && Counted(c, p, isIntermediate)
  {
    GetArgInt(RequestOf(c))
  }

  /** The running maximum intermediate_num computes over `cs`, from -1. */
  function HighestIntermediate(cs: seq<Content>, p: Prefix, isIntermediate: Prefix -> bool): int32
    reads RequestsOf(cs)
    requires AllReadable(cs, p, isIntermediate)
    decreases |cs|
  {
    if |cs| == 0 then -1
    else
      var last := cs[|cs| - 1];
      assert RequestOf(last) != null ==> RequestOf(last) in RequestsOf(cs);
      assert RequestsOf(cs[..|cs| - 1]) <= RequestsOf(cs) by {
        forall k | 0 <= k < |cs| - 1 ensures cs[..|cs| - 1][k] == cs[k] { }
      }
      var h := HighestIntermediate(cs[..|cs| - 1], p, isIntermediate);
      if Counted(last, p, isIntermediate) && h < ArgOf(last, p, isIntermediate)
      then ArgOf(last, p, isIntermediate) else h
  }

  /** The running maximum never drops below its start value -1. */
  lemma {:induction false} HighestAtLeastStart(cs: seq<Content>, p: Prefix, isIntermediate: Prefix -> bool)
    requires AllReadable(cs, p, isIntermediate)
    ensures HighestIntermediate(cs, p, isIntermediate) >= -1
    decreases |cs|
  {
    if |cs| > 0 {
      var init := cs[..|cs| - 1];
      assert forall k :: 0 <= k < |init| ==> init[k] == cs[k];
      HighestAtLeastStart(init, p, isIntermediate);
    }
  }

  /** The running maximum is at least the argument of the consulted content `cs[k]`. */
  lemma {:induction false} HighestBoundsArg(cs: seq<Content>, p: Prefix, isIntermediate: Prefix -> bool, k: nat)
    requires AllReadable(cs, p, isIntermediate)
    requires k < |cs| && Counted(cs[k], p, isIntermediate)
    ensures ArgOf(cs[k], p, isIntermediate) <= HighestIntermediate(cs, p, isIntermediate)
    decreases |cs|
  {
    var init := cs[..|cs| - 1];
    assert AllReadable(init, p, isIntermediate) by {
      assert forall j :: 0 <= j < |init| ==> init[j] == cs[j];
    }
    var h0 := HighestIntermediate(init, p, isIntermediate);
    var last := cs[|cs| - 1];
    assert HighestIntermediate(cs, p, isIntermediate) ==
      if Counted(last, p, isIntermediate) && h0 < ArgOf(last, p, isIntermediate)
      then ArgOf(last, p, isIntermediate) else h0;
    if k < |init| {
      assert init[k] == cs[k];
      HighestBoundsArg(init, p, isIntermediate, k);
    }
  }

  /** The running maximum is at least -1 and at least every consulted argument. */
  lemma HighestIsUpperBound(cs: seq<Content>, p: Prefix, isIntermediate: Prefix -> bool)
    requires AllReadable(cs, p, isIntermediate)
    ensures HighestIntermediate(cs, p, isIntermediate) >= -1
    ensures forall k :: 0 <= k < |cs| && Counted(cs[k], p, isIntermediate) ==>
      ArgOf(cs[k], p, isIntermediate) <= HighestIntermediate(cs, p, isIntermediate)
  {
    HighestAtLeastStart(cs, p, isIntermediate);
    forall k | 0 <= k < |cs| && Counted(cs[k], p, isIntermediate)
      ensures ArgOf(cs[k], p, isIntermediate) <= HighestIntermediate(cs, p, isIntermediate)
    {
      HighestBoundsArg(cs, p, isIntermediate, k);
    }
  }

  /**
   * The running maximum is -1 or the argument of some consulted content;
   * so it is -1 when no content is consulted.
   */
  lemma {:induction false} HighestIsAttained(cs: seq<Content>, p: Prefix, isIntermediate: Prefix -> bool)
    requires AllReadable(cs, p, isIntermediate)
    ensures HighestIntermediate(cs, p, isIntermediate) == -1 ||
      exists k :: 0 <= k < |cs| && Counted(cs[k], p, isIntermediate) &&
        ArgOf(cs[k], p, isIntermediate) == HighestIntermediate(cs, p, isIntermediate)
    ensures (forall k :: 0 <= k < |cs| ==> !Counted(cs[k], p, isIntermediate)) ==>
      HighestIntermediate(cs, p, isIntermediate) == -1
    decreases |cs|
  {
    if |cs| > 0 {
      var init := cs[..|cs| - 1];
      var last := cs[|cs| - 1];
      assert forall k :: 0 <= k < |init| ==> init[k] == cs[k];
      HighestIsAttained(init, p, isIntermediate);
      var h0 := HighestIntermediate(init, p, isIntermediate);
      if !(Counted(last, p, isIntermediate) && h0 < ArgOf(last, p, isIntermediate)) && h0 != -1 {
        var k :| 0 <= k < |init| && Counted(init[k], p, isIntermediate) &&
          ArgOf(init[k], p, isIntermediate) == h0;
        assert cs[k] == init[k];
      }
    }
  }

  /**
   * nfn_request_intermediate_num over the relay's content list, with
   * ccnl_nfnprefix_isIntermediate as `isIntermediate`.
   */
  method IntermediateNum(relay: Relay, p: Prefix, isIntermediate: Prefix -> bool) returns (highest: int)
    requires AllReadable(relay.contents, p, isIntermediate)
    ensures highest == HighestIntermediate(relay.contents, p, isIntermediate)
  {
    var cs := relay.contents;
    highest := -1;
    var i := 0;
    while i < |cs|
      invariant 0 <= i <= |cs|
      invariant AllReadable(cs[..i], p, isIntermediate)
      invariant highest == HighestIntermediate(cs[..i], p, isIntermediate)
    {
      var c := cs[i];
      HighestStep(cs, i, p, isIntermediate);
      CountedByLongestMatch(c, p, isIntermediate);
      if isIntermediate(c.pkt.value.pfx) {
        var m := CommonPrefixLen(p.comps, c.pkt.value.pfx.comps);
        if |p.comps| == m {
          var internum := GetArgInt(c.pkt.value.pfx.request);
          if highest < internum {
            highest := internum;
          }
        }
      }
      i := i + 1;
    }
    assert cs[..i] == cs;
  }

  /** One step of the running maximum: the prefix of length i + 1 from that of length i. */
  lemma HighestStep(cs: seq<Content>, i: nat, p: Prefix, isIntermediate: Prefix -> bool)
    requires AllReadable(cs, p, isIntermediate) && i < |cs|
    ensures AllReadable(cs[..i], p, isIntermediate) && AllReadable(cs[..i + 1], p, isIntermediate)
    ensures Readable(cs[i], p, isIntermediate)
    ensures HighestIntermediate(cs[..i + 1], p, isIntermediate) ==
      if Counted(cs[i], p, isIntermediate) &&
         HighestIntermediate(cs[..i], p, isIntermediate) < ArgOf(cs[i], p, isIntermediate)
      then ArgOf(cs[i], p, isIntermediate) else HighestIntermediate(cs[..i], p, isIntermediate)
  {
    assert forall k :: 0 <= k < i ==> cs[..i][k] == cs[k];
    assert forall k :: 0 <= k <= i ==> cs[..i + 1][k] == cs[k];
    assert cs[..i + 1][..i] == cs[..i];
  }

  /** The loop's test: an intermediate name whose CMP_LONGEST match covers all of `p`. */
  lemma CountedByLongestMatch(c: Content, p: Prefix, isIntermediate: Prefix -> bool)
    requires c.pkt.Some?
    ensures Counted(c, p, isIntermediate) <==>
      isIntermediate(c.pkt.value.pfx) && CommonPrefixLen(p.comps, c.pkt.value.pfx.comps) == |p.comps|
  {
    LongestMatchIsExtension(p.comps, c.pkt.value.pfx.comps);
  }

  /**
   * nfn_request_handleInterest for an interest whose name carries a
   * request; `computing` is ccnl_nfn_already_computing. The reply is the
   * payload of the content enqueued to the sender, None when nothing is
   * sent. It always returns 0.
   */
  method HandleInterest(relay: Relay, pkt: Packet, computing: bool, isIntermediate: Prefix -> bool)
    returns (ret: int, reply: Option<string>)
    requires pkt.pfx.request != null
    requires pkt.pfx.request.rtype == COUNT_INTERMEDIATES && computing ==>
      AllReadable(relay.contents, pkt.pfx, isIntermediate)
    ensures ret == 0
    ensures reply.Some? <==>
      computing && pkt.pfx.request.rtype in {KEEPALIVE, COUNT_INTERMEDIATES}
    ensures pkt.pfx.request.rtype == KEEPALIVE && computing ==> reply == Some([])
    ensures pkt.pfx.request.rtype == COUNT_INTERMEDIATES && computing ==>
      var h := HighestIntermediate(relay.contents, pkt.pfx, isIntermediate);
      reply.Some? && |reply.value| < 16 &&
      (h < 0 ==> reply.value == []) &&
      (h >= 0 ==> reply.value == FormatInt(h) && Strtol0(reply.value) == h)
  {
    var rtype := pkt.pfx.request.rtype;
    if rtype == KEEPALIVE {
      if computing {
        return 0, Some([]);
      }
    } else if rtype == COUNT_INTERMEDIATES {
      if computing {
        var internum := IntermediateNum(relay, pkt.pfx, isIntermediate);
        // snprintf(reply, 16, "%d", internum): the rendering fits the buffer
        FormatIntLength(internum);
        FormatIntRoundTrip(internum);
        var text := FormatInt(internum);
        var size := if internum >= 0 then |text| else 0;
        return 0, Some(text[..size]);
      }
    }
    return 0, None;
  }
}

=== FILE: riot_link.dfy ===
/*
 * The RIOT link layer of the relay: the sending function ccnl_ll_TX
 * (loopback and broadcast classification of the destination), the
 * receive callback's interface lookup, opening a network interface, and
 * the application's wait for a content chunk. gnrc packet-buffer,
 * header and netapi calls are given as their results.
 */
module RiotLink {
  import opened CcnlTypes
  import Dispatch
  import Compas

  // ---------------------------------------------------------------------
  // Buffers

  /** A relay buffer (struct ccnl_buf_s); `datalen` is `|data|`. */
  datatype Buf = Buf(data: seq<byte>)

  /**
   * ccnl_buf_new(data, len) with malloc: a buffer of `len` bytes holding
   * `data`'s first `len` bytes, or whatever the allocator left (`junk`)
   * when `data` is NULL; None when the allocation fails. The copy reads
   * `len` bytes of `data`.
   */
  function BufNew(data: Option<seq<byte>>, len: nat, allocOk: bool, junk: seq<byte>): (b: Option<Buf>)
    requires data.Some? ==> len <= |data.value|
    requires |junk| == len
    ensures b.Some? <==> allocOk
    ensures b.Some? ==> |b.value.data| == len
    ensures b.Some? && data.Some? ==> b.value.data == data.value[..len]
    ensures b.Some? && data.None? ==> b.value.data == junk
  {
    if !allocOk then None
    else if data.Some? then Some(Buf(data.value[..len]))
    else Some(Buf(junk))
  }

  // ---------------------------------------------------------------------
  // Destination classification

  /** A socket address: its family and its link-layer address (`sll_halen` is its length). */
  datatype SockAddr = SockAddr(family: int, addr: seq<byte>)

  /** The destination is the interface's own address: same length, same bytes. */
  predicate IsLoopback(ifc: Iface, dest: seq<byte>)
  {
    |ifc.hwaddr| == |dest| && ifc.hwaddr == dest
  }

  /** Every byte of the address is 0xFF (vacuously so for an empty address). */
  predicate IsBroadcast(dest: seq<byte>)
  {
    forall k :: 0 <= k < |dest| ==> dest[k] == 0xFF
  }

  /** The broadcast scan of ccnl_ll_TX: it stops at the first byte that is not 0xFF. */
  method BroadcastScan(dest: seq<byte>) returns (isBcast: bool)
    ensures isBcast <==> IsBroadcast(dest)
    ensures |dest| == 0 ==> isBcast
  {
    isBcast := true;
    var i := 0;
    while i < |dest|
      invariant 0 <= i <= |dest|
      invariant forall k :: 0 <= k < i ==> dest[k] == 0xFF
      decreases |dest| - i
    {
      if dest[i] != 0xFF {
        isBcast := false;
        break;
      }
      i := i + 1;
    }
  }

  /** What a call of ccnl_ll_TX ends in. */
  datatype TxOutcome =
    | UnknownTransport                         // not AF_PACKET: nothing is done
    | BufferFull                               // the packet could not be allocated
    | NoHeader                                 // the netif header could not be built; packet released
    | Looped(payload: seq<byte>, accepted: bool)   // handed back to the relay's own thread
    | Sent(frame: Compas.Frame, accepted: bool)    // handed to the interface

  /**
   * The decision ccnl_ll_TX takes. `allocOk`, `hdrOk` are whether the
   * packet and the (non-loopback) header could be allocated; `recvRes`
   * and `sendRes` are what gnrc_netapi_receive and gnrc_netapi_send return.
   */
  function TxDecision(ifc: Iface, dest: SockAddr, data: seq<byte>, allocOk: bool, hdrOk: bool,
                      recvRes: int, sendRes: int): TxOutcome
  {
    if dest.family != AF_PACKET then UnknownTransport
    else if !allocOk then BufferFull
    else if IsLoopback(ifc, dest.addr) then Looped(data, recvRes >= 1)
    else if !hdrOk then NoHeader
    else Sent(Compas.Frame(IsBroadcast(dest.addr), dest.addr, ifc.ifPid, data), sendRes >= 1)
  }

  /**
   * ccnl_ll_TX(ccnl, ifc, dest, buf). The loopback header is built and
   * then written to, so the code needs that build to succeed
   * (`hdrLoopOk`); for other destinations a failed build releases the
   * packet.
   */
  method LlTx(ifc: Iface, dest: SockAddr, buf: Buf, allocOk: bool, hdrLoopOk: bool, hdrOk: bool,
              recvRes: int, sendRes: int)
    returns (out: TxOutcome)
    requires dest.family == AF_PACKET && allocOk && IsLoopback(ifc, dest.addr) ==> hdrLoopOk
    ensures out == TxDecision(ifc, dest, buf.data, allocOk, hdrOk, recvRes, sendRes)
  {
    if dest.family != AF_PACKET {
      return UnknownTransport;
    }
    if !allocOk {
      return BufferFull;
    }
    var isLoopback := false;
    var hdr := false;
    if |ifc.hwaddr| == |dest.addr| {
      if ifc.hwaddr == dest.addr {
        hdr := hdrLoopOk;
        isLoopback := true;
      }
    }
    if !hdr {
      hdr := hdrOk;
    }
    if !hdr {
      return NoHeader;
    }
    if isLoopback {
      return Looped(buf.data, recvRes >= 1);
    }
    var isBcast := BroadcastScan(dest.addr);
    out := Sent(Compas.Frame(isBcast, dest.addr, ifc.ifPid, buf.data), sendRes >= 1);
  }

  /**
   * The loopback test comes first: a packet for the interface's own
   * address is never put on the link, even when that address is all
   * 0xFF; any other link-layer destination is sent, flagged broadcast
   * exactly when all its bytes are 0xFF.
   */
  lemma LoopbackBeforeBroadcast(ifc: Iface, dest: SockAddr, data: seq<byte>, allocOk: bool, hdrOk: bool,
                                recvRes: int, sendRes: int)
    requires dest.family == AF_PACKET && allocOk
    ensures IsLoopback(ifc, dest.addr) ==> TxDecision(ifc, dest, data, allocOk, hdrOk, recvRes, sendRes).Looped?
    ensures !IsLoopback(ifc, dest.addr) && hdrOk ==>
      TxDecision(ifc, dest, data, allocOk, hdrOk, recvRes, sendRes).Sent? &&
      (TxDecision(ifc, dest, data, allocOk, hdrOk, recvRes, sendRes).frame.broadcast <==>
       IsBroadcast(dest.addr))
  {
  }

  /**
   * A zero-length destination is loopback on an interface without an
   * address and broadcast on any other.
   */
  lemma EmptyDestination(ifc: Iface, data: seq<byte>, hdrOk: bool, recvRes: int, sendRes: int)
    requires hdrOk
    ensures |ifc.hwaddr| == 0 ==>
      TxDecision(ifc, SockAddr(AF_PACKET, []), data, true, hdrOk, recvRes, sendRes).Looped?
    ensures |ifc.hwaddr| > 0 ==>
      TxDecision(ifc, SockAddr(AF_PACKET, []), data, true, hdrOk, recvRes, sendRes) ==
      Sent(Compas.Frame(true, [], ifc.ifPid, data), sendRes >= 1)
  {
  }

  // ---------------------------------------------------------------------
  // Receiving

  /** The first interface at or after `from` whose thread is `pid`. */
  function FirstPidFrom(ifs: seq<Iface>, pid: int, from: nat): (r: Option<nat>)
    requires from <= |ifs|
    ensures r.Some? ==> from <= r.value < |ifs| && ifs[r.value].ifPid == pid
    ensures r.Some? ==> forall j :: from <= j < r.value ==> ifs[j].ifPid != pid
    ensures r.None? ==> forall j :: from <= j < |ifs| ==> ifs[j].ifPid != pid
    decreases |ifs| - from
  {
    if from == |ifs| then None
    else if ifs[from].ifPid == pid then Some(from)
    else FirstPidFrom(ifs, pid, from + 1)
  }

  /**
   * The interface a frame from thread `pid` is taken to have arrived on:
   * the first one with that pid, and interface 0 when there is none.
   */
  function ArrivalIface(ifs: seq<Iface>, pid: int): (i: nat)
    ensures (exists k :: 0 <= k < |ifs| && ifs[k].ifPid == pid) ==>
      i < |ifs| && ifs[i].ifPid == pid && forall j :: 0 <= j < i ==> ifs[j].ifPid != pid
    ensures (forall k :: 0 <= k < |ifs| ==> ifs[k].ifPid != pid) ==> i == 0
  {
    match FirstPidFrom(ifs, pid, 0)
    case Some(k) => k
    case None => 0
  }

  /** The interface scan of _receive. */
  method ReceiveInterface(ifs: seq<Iface>, senderPid: int) returns (i: nat)
    ensures i == ArrivalIface(ifs, senderPid)
  {
    i := 0;
    while i < |ifs|
      invariant 0 <= i <= |ifs|
      invariant FirstPidFrom(ifs, senderPid, 0) == FirstPidFrom(ifs, senderPid, i)
      decreases |ifs| - i
    {
      if ifs[i].ifPid == senderPid {
        break;
      }
      i := i + 1;
    }
    if i == |ifs| {
      i := 0;
    }
  }

  /**
   * _receive(ccnl, m): the frame `data` from thread `senderPid` is handed
   * to ccnl_core_RX together with the interface it arrived on.
   * `hasFace` is whether core_RX obtains a face for the sender's link
   * address.
   */
  method Receive(suites: Dispatch.SuiteTable, relay: Relay, w: Dispatch.Wire, senderPid: int,
                 data: seq<byte>, hasFace: bool)
    returns (ifndx: nat, r: Dispatch.RxResult)
    requires suites.Valid() && Dispatch.WellBehaved(w)
    ensures ifndx == ArrivalIface(relay.ifs, senderPid)
    ensures r == Dispatch.Rx(w, suites.suites[..], hasFace, data)
  {
    ifndx := ReceiveInterface(relay.ifs, senderPid);
    r := suites.CoreRX(w, hasFace, data);
  }

  // ---------------------------------------------------------------------
  // Opening an interface

  /** GNRC_NETREG_DEMUX_CTX_ALL of RIOT's netreg.h. */
  const GNRC_NETREG_DEMUX_CTX_ALL: int := 0xFFFF_0000

  /**
   * What gnrc_netapi_get reports for an interface: the result of each of
   * the three queries and the values read (`|addr|` is the address length).
   */
  datatype NetifInfo = NetifInfo(mtuRes: int, mtu: int, addrLenRes: int, addrRes: int, addr: seq<byte>)

  /** All three queries succeed. */
  predicate Answered(info: NetifInfo)
  {
    info.mtuRes >= 0 && info.addrLenRes >= 0 && info.addrRes >= 0
  }

  /**
   * ccnl_open_netif(if_pid, netreg_type) of the COMPAS build: -1 when the
   * interface does not exist or the table is full, -ECANCELED when a
   * query fails (the table then keeps its old size), otherwise the
   * interface is appended with its MTU and address and `fwdalli` set, and
   * the relay's netreg entry is (re)initialised and registered for
   * `nettype` on every call; the result is gnrc_netreg_register's.
   */
  method OpenNetif(relay: Relay, ne: NetregEntry, ifPid: int, nettype: int, eventLoopPid: int,
                   present: bool, info: NetifInfo, registerRes: int)
    returns (r: int)
    requires relay.Valid()
    modifies relay, ne
    ensures relay.Valid()
    ensures relay.contents == old(relay.contents) && relay.contentcnt == old(relay.contentcnt)
    ensures relay.pit == old(relay.pit) && relay.dodag == old(relay.dodag)
    ensures relay.compasDodagParentTimeout == old(relay.compasDodagParentTimeout) &&
      relay.compasNamTimerRunning == old(relay.compasNamTimerRunning)
    ensures !present || |old(relay.ifs)| >= CCNL_MAX_INTERFACES ==>
      r == -1 && relay.ifs == old(relay.ifs) && ne.registrations == old(ne.registrations) &&
      ne.demuxCtx == old(ne.demuxCtx) && ne.pid == old(ne.pid)
    ensures present && |old(relay.ifs)| < CCNL_MAX_INTERFACES && !Answered(info) ==>
      r == -(ECANCELED as int) && relay.ifs == old(relay.ifs) && ne.registrations == old(ne.registrations) &&
      ne.demuxCtx == old(ne.demuxCtx) && ne.pid == old(ne.pid)
    ensures present && |old(relay.ifs)| < CCNL_MAX_INTERFACES && Answered(info) ==>
      relay.ifs == old(relay.ifs) + [Iface(ifPid, info.mtu, info.addr, 1)] &&
      ne.demuxCtx == GNRC_NETREG_DEMUX_CTX_ALL && ne.pid == eventLoopPid &&
      ne.registrations == old(ne.registrations) + [nettype] && r == registerRes
  {
    if !present {
      return -1;
    }
    if |relay.ifs| >= CCNL_MAX_INTERFACES {
      return -1;
    }
    if info.mtuRes < 0 || info.addrLenRes < 0 || info.addrRes < 0 {
      return -(ECANCELED as int);
    }
    relay.ifs := relay.ifs + [Iface(ifPid, info.mtu, info.addr, 1)];
    ne.demuxCtx := GNRC_NETREG_DEMUX_CTX_ALL;
    ne.pid := eventLoopPid;
    ne.registrations := ne.registrations + [nettype];
    r := registerRes;
  }

  /**
   * Opening two interfaces for the same nettype registers the one static
   * netreg entry twice.
   */
  method TwoInterfacesRegisterTwice(nettype: int, info: NetifInfo, dodag: Dodag)
    returns (registrations: seq<int>)
    requires CCNL_MAX_INTERFACES >= 2 && Answered(info)
    ensures registrations == [nettype, nettype]
  {
    var relay := new Relay(dodag);
    var ne := new NetregEntry();
    var r1 := OpenNetif(relay, ne, 5, nettype, 3, true, info, 0);
    var r2 := OpenNetif(relay, ne, 6, nettype, 3, true, info, 0);
    registrations := ne.registrations;
  }

  // ---------------------------------------------------------------------
  // Waiting for a chunk

  /** A message the waiting thread receives. */
  datatype WaitMsg =
    | ChunkRcv(chunk: seq<byte>)   // GNRC_NETAPI_MSG_TYPE_RCV with a CCN chunk
    | OtherRcv                     // GNRC_NETAPI_MSG_TYPE_RCV with anything else
    | TimerFired                   // CCNL_MSG_TIMEOUT
    | Unrelated                    // any other message

  /** A message that ends the wait. */
  predicate Decisive(m: WaitMsg)
  {
    m.ChunkRcv? || m.TimerFired?
  }

  /** The first message at or after `from` that ends the wait. */
  function FirstDecisiveFrom(msgs: seq<WaitMsg>, from: nat): (k: nat)
    requires from <= |msgs| && exists j :: from <= j < |msgs| && Decisive(msgs[j])
    ensures from <= k < |msgs| && Decisive(msgs[k])
    ensures forall j :: from <= j < k ==> !Decisive(msgs[j])
    decreases |msgs| - from
  {
    if Decisive(msgs[from]) then from else FirstDecisiveFrom(msgs, from + 1)
  }

  /** The timeout armed for each wait: the given one, or MAX retransmissions' worth of seconds for 0. */
  function ArmedTimeout(timeout: nat): (t: nat)
    ensures timeout != 0 ==> t == timeout
    ensures timeout == 0 ==> t == CCNL_MAX_INTEREST_RETRANSMIT * US_PER_SEC
  {
    if timeout == 0 then CCNL_MAX_INTEREST_RETRANSMIT * US_PER_SEC else timeout
  }

  /**
   * ccnl_wait_for_chunk(buf, buf_len, timeout) over the messages the
   * thread receives, in order, until one ends the wait. One must come:
   * the timer is re-armed before each receive, so a stream of other
   * messages postpones the timeout for ever. A chunk is copied into
   * `buf`, truncated to the buffer, and its copied length is returned;
   * a timer message gives -ETIMEDOUT. Other messages are skipped. `armed`
   * is the timeout set before each receive, `consumed` the messages taken.
   */
  method WaitForChunk(buf: array<byte>, timeout: nat, msgs: seq<WaitMsg>)
    returns (res: int, armed: nat, consumed: nat)
    requires exists j :: 0 <= j < |msgs| && Decisive(msgs[j])
    modifies buf
    ensures armed == ArmedTimeout(timeout)
    ensures consumed == FirstDecisiveFrom(msgs, 0) + 1
    ensures msgs[consumed - 1].TimerFired? ==> res == -(ETIMEDOUT as int) && buf[..] == old(buf[..])
    ensures msgs[consumed - 1].ChunkRcv? ==>
      var chunk := msgs[consumed - 1].chunk;
      res == (if |chunk| > buf.Length then buf.Length else |chunk|) &&
      buf[..res] == chunk[..res] && buf[res..] == old(buf[res..])
  {
    armed := if timeout == 0 then CCNL_MAX_INTEREST_RETRANSMIT * US_PER_SEC else timeout;
    var k := 0;
    while !Decisive(msgs[k])
      invariant k <= FirstDecisiveFrom(msgs, 0)
      invariant FirstDecisiveFrom(msgs, k) == FirstDecisiveFrom(msgs, 0)
      decreases FirstDecisiveFrom(msgs, 0) - k
    {
      k := k + 1;
    }
    consumed := k + 1;
    if msgs[k].TimerFired? {
      res := -(ETIMEDOUT as int);
    } else {
      var chunk := msgs[k].chunk;
      var len := if |chunk| > buf.Length then buf.Length else |chunk|;
      CopyInto(buf, chunk, len);
      res := len;
    }
  }

  /** memcpy(buf, data, len) */
  method CopyInto(buf: array<byte>, data: seq<byte>, len: nat)
    requires len <= buf.Length && len <= |data|
    modifies buf
    ensures buf[..len] == data[..len] && buf[len..] == old(buf[len..])
  {
    var i := 0;
    while i < len
      invariant 0 <= i <= len
      invariant buf[..i] == data[..i]
      invariant buf[len..] == old(buf[len..])
      decreases len - i
    {
      buf[i] := data[i];
      i := i + 1;
    }
  }
}
